=== FILE: README.md ===
# yt-channel-scraper in Dafny

A model of the enumeration engine of `ytchan_dl.py` and of the argument scanner of
`getargs.py`, with proofs about both. The tool lists every upload of a YouTube channel.

1. It resolves the channel URL to a kind (`channel` or `user`) and an id.
2. It loads the tab-separated output file, if one exists.
3. It walks the channel's newest-first listing page by page. Each video whose URL is not
   yet known is appended to three parallel lists and written to the file. The first known
   URL stops the walk.
4. When that pass ran through every continuation, it may walk the oldest-first listing too.

The site, the file system and the user are inputs of the model:

- the parsed first page and the decoded continuation payloads of each pass;
- the files on disk, as a map from path to text;
- the reply to the overwrite prompt;
- the meta text of the search result that carries the video count.

A run is a pure function of those inputs. It returns the files afterwards, the requests
in order, the records appended, the lists and the outcome. Every exception the modelled
lines raise is an outcome; the ones outside the model are listed under "Left out".

Modules, one per file:

| module | file | models |
|---|---|---|
| `Results` | results.dfy | `Option` and `Result` |
| `Text` | text.dfy | `strip`, `split`, `re.split`, `join`, `in`, `re.sub`, `rfind` on strings |
| `Records` | records.dfy | video records, duplicate-free URL lists, fresh batches |
| `LineFormat` | line_format.dfy | the written line (line 209) and the loader (lines 116-121) |
| `StoreFile` | store_file.dfy | the file as text: `readlines` and appending |
| `Channels` | channel.dfy | `extract_channel_id` and the listing URLs |
| `VideoCount` | video_count.dfy | the count parse of line 64, with Python's `int` |
| `Listing` | listing.dfy | `extract_and_append_links` |
| `Pagination` | pagination.dfy | `fetch_and_scroll` |
| `Uploads` | uploads.dfy | `ChannelUploads.__init__` |
| `CommandLine` | getargs.dfy | `GetArgs` and its `kwargs` |

Each operation has a partner:

- `extract_and_append_links` has the declarative `Listing.LongestFreshPrefix`, and the
  two agree in both directions.
- `fetch_and_scroll` agrees with one walk over every entry it consumed.
- The written line parses back, and the written file loads back.
- The channel URLs built from a reference resolve back to it.
- A grouped count parses back to itself.
- The imperative `GetArgs` loop equals the recursive `Scan`. Each option is characterised
  on its own.

Behaviour of the code that the model makes explicit:

- **The non-id fragment check never applies.** The loop over `NON_CHANNELID_PARTS`
  (lines 45-47) only breaks itself, so the first segment outside the vocabulary is the id
  whatever it contains. `Channels.SkippingPartsAgrees` shows that skipping such segments
  would not change the id anyway: every fragment contains a `?`, and the split removes `?`.
- **Single-page listings crash.** A first page without a load-more attribute raises
  `IndexError` (line 165). A continuation whose widget has no button raises the same way
  (line 185).
- **The count needs a progress bar.** Line 143 reads `pbar.n` even when no bar was
  created, because the file already existed and was kept. The run then crashes with
  `AttributeError`: `Uploads.ProgressBarCrash`.
- **Requests of a resumed run.** The search request for the video count is made whenever
  the bar is shown, that is when the output file is new or emptied. A run that resumes a
  file listing any video shows no bar, so when the listing starts with a known video the
  GET of the listing is its only request (`Uploads.ResumeStopsAtKnown`).
- **`int`'s whitespace is not `strip()`'s.** The information separators U+001C..U+001F
  are whitespace to `str.isspace()`, but `int` neither skips them nor accepts them, so
  one in the count text raises `ValueError` (`VideoCount.ParsePyInt`,
  `VideoCount.LeadingSeparatorFails`).
- **Line ends.** The file is read in text mode, so "\r\n" and a lone "\r" end lines as
  "\n" does (`StoreFile.ReadText`).
- **Idempotence has conditions.** A second run appends nothing when four things hold
  (`Uploads.RerunAppendsNothing`):
  - the kept file ended in a newline;
  - every record found was storable;
  - the first listing entry was well formed;
  - the count could be read.
  Without the first two, lines glue together or fail to load:
  `StoreFile.AppendGluesToUnterminatedText` and `LineFormat.TabInTitleShiftsColumns`.
- **No duplicates needs a clean file.** The store is never checked for duplicates on load.
  A run keeps the URL list duplicate-free only if the loaded file was
  (`Uploads.RunKeepsNoDup`).
- **Help always crashes.** The `HELP_*` names in
  getargs.py are not defined, so every valid help request ends in `NameError`. The scan
  stops there, which the model records as `HelpRequested`.

## Model

| member | source | states |
|---|---|---|
| Text.RemoveAppend | ytchan_dl.py:64 | removing commas from a concatenation removes them from each part |
| Text.RemoveAbsent | ytchan_dl.py:64 | text without commas is unchanged by the comma removal |
| Text.RemoveSnoc | ytchan_dl.py:64 | removing a character works one character at a time: a trailing `c` is dropped and any other trailing character is kept after what is left of the rest |
| Text.Strip | ytchan_dl.py:118 | `strip()` gives text no longer than its input that neither starts nor ends with whitespace; `StripPadded` states that it is exactly the input without its surrounding whitespace |
| Text.Split | ytchan_dl.py:34 | `re.split` on a character class and `str.split` on one character give at least one piece; the pieces are separator-free (`SplitPiecesFree`), text without a separator is one piece (`SplitFree`), and a separator splits the text on its two sides independently (`SplitAppend`); for one separator character the pieces join back to the text (`JoinSplit`) |
| Text.SplitPiecesFree | ytchan_dl.py:34 | no piece of a split holds a separator |
| Text.Join | ytchan_dl.py:209 | `sep.join`: splitting a join of separator-free pieces gives the pieces back (`SplitJoin`) and joining the pieces of a split gives the text (`JoinSplit`) |
| Text.RFind | getargs.py:32 | the index found holds the character and no later index does; -1 means the character is absent |
| Text.JoinSplit | ytchan_dl.py:34 | splitting at one separator loses nothing: joining the pieces back gives the string |
| Text.SplitJoin | ytchan_dl.py:118 | splitting a join of separator-free pieces gives the pieces back |
| Text.SplitAppend | ytchan_dl.py:34 | a separator character splits the text on its two sides independently |
| Text.StripKeeps | ytchan_dl.py:118 | a string that starts and ends in a non-space character is its own `strip()` |
| Text.RStripDropsTail | ytchan_dl.py:118 | `rstrip` removes exactly a trailing run of whitespace after a non-space character |
| Text.LStripDropsHead | ytchan_dl.py:118 | leading whitespace makes no difference to `lstrip` |
| Text.StripPadded | ytchan_dl.py:118 | text padded on both sides with whitespace strips to exactly what is inside, when that neither starts nor ends with whitespace or is empty |
| Text.NotContainedIfSeparated | ytchan_dl.py:46 | a string free of a separator never contains a fragment that holds that separator |
| Records.FreshKeepsNoDup | ytchan_dl.py:200-204 | appending records with unknown, pairwise distinct URLs keeps a duplicate-free URL list duplicate-free |
| Records.FreshConcat | ytchan_dl.py:200-204 | two fresh batches in a row form one fresh batch |
| Records.ColumnsConcat | ytchan_dl.py:204-206 | the URL, title and date columns of a concatenation are the concatenated columns, so the lists grow in lockstep |
| LineFormat.LinesConcat | ytchan_dl.py:209 | the lines written for two batches are those of the first batch followed by those of the second |
| LineFormat.Serialize | ytchan_dl.py:209 | the line the f-string writes for a record: url, tab, title, tab, publish date, newline; for a storable record it parses back into the record (`LineRoundTrip`) |
| LineFormat.ParseLine | ytchan_dl.py:118 | `line.strip().split('\t')`; it inverts `Serialize` on storable records (`LineRoundTrip`) |
| LineFormat.Load | ytchan_dl.py:117-121 | the list comprehension and `zip(*...)` unpack of line 118 on the lines read; it loads written lines back (`LoadWritten`) and grows with the file (`LoadAppend`) |
| LineFormat.ParseJoinedLine | ytchan_dl.py:118 | a tab-joined line of break-free fields, with no space at either end, parses back into exactly those fields |
| LineFormat.LineRoundTrip | ytchan_dl.py:209 | the line written for a storable record parses back into its url, title and publish date |
| LineFormat.MinLen | ytchan_dl.py:118 | the number of tuples `zip(*rows)` produces is the length of a row and no row is shorter |
| LineFormat.RowsAppend | ytchan_dl.py:118 | the rows of two files of lines are the rows of each, in order |
| LineFormat.Unzip3 | ytchan_dl.py:118 | unpacking into three lists succeeds exactly when there are no rows, or every row has at least three fields and one has exactly three; then each record is its row's first three fields |
| LineFormat.Unzip3Fields | ytchan_dl.py:118 | rows of exactly three fields unzip into the records they spell |
| LineFormat.LoadWritten | ytchan_dl.py:116-121 | the lines written for storable records load back as exactly those records, in order |
| LineFormat.Unzip3Append | ytchan_dl.py:118 | unpacking concatenated rows that each unpack gives the concatenated records |
| LineFormat.LoadAppend | ytchan_dl.py:116-121 | a file that grew by appending loads as the old records followed by the new |
| LineFormat.TabInTitleShiftsColumns | ytchan_dl.py:118 | a title holding a tab makes a line of four fields: alone it fails the load; next to a good line, the title's second half is loaded as the publish date |
| LineFormat.ShortLineFailsLoad | ytchan_dl.py:118 | one line with fewer than three fields makes the whole load fail |
| StoreFile.LineEndSpec | ytchan_dl.py:116 | on text whose line ends are "\n", the first line cut holds no newline except the one that ends it, and only the last line may lack one |
| StoreFile.ReadLines | ytchan_dl.py:116 | the cut of `readlines` on text whose line ends are already "\n": its lines put together are the text (`FlattenReadLines`) and whole lines read back as themselves (`ReadFlatten`) |
| StoreFile.Universal | ytchan_dl.py:115-116 | the newline translation of a text-mode read: "\r\n" and a lone "\r" become "\n"; no "\r" is left (`UniversalNoReturn`), and the text is unchanged exactly when it holds no "\r" (`UniversalKeeps`) |
| StoreFile.ReadText | ytchan_dl.py:115-116 | `f.readlines()` on a file opened with `'r'`: translate line ends, then cut after each "\n"; a line ending in "\r\n" or "\r" reads as that line with "\n" (`ReturnEndsLine`) |
| StoreFile.UniversalNoReturn | ytchan_dl.py:115-116 | no carriage return survives the translation |
| StoreFile.UniversalFree | ytchan_dl.py:115-116 | text without a carriage return is not changed by the translation |
| StoreFile.UniversalKeeps | ytchan_dl.py:115-116 | the translation leaves text as it is exactly when it holds no carriage return |
| StoreFile.UniversalAppend | ytchan_dl.py:115-116 | the translation of two texts is the translation of each, unless the first ends in "\r" and the second starts with "\n" |
| StoreFile.UniversalLast | ytchan_dl.py:115-116 | the translation ends in the text's last character, with a final "\r" read as "\n" |
| StoreFile.ReturnEndsLine | ytchan_dl.py:115-116 | a line ended by "\r\n", or by a lone "\r", reads as the line ended by "\n", followed by the lines of the rest |
| StoreFile.CrLfEndsLine | ytchan_dl.py:115-116 | a line ended by "\r\n" reads as the line ended by "\n", followed by the lines of the rest |
| StoreFile.LoneReturnEndsLine | ytchan_dl.py:115-116 | a line ended by a "\r" that no "\n" follows reads as the line ended by "\n", followed by the lines of the rest |
| StoreFile.FlattenReadLines | ytchan_dl.py:116 | cutting text at "\n" loses nothing: the lines put together are the text |
| StoreFile.FirstLineEnd | ytchan_dl.py:116 | text that starts with a whole line has that line as its first |
| StoreFile.ReadLinesCons | ytchan_dl.py:116 | a whole line at the front is read as one line, followed by the lines of the rest |
| StoreFile.ReadFlatten | ytchan_dl.py:116 | whole lines put together read back as the same lines, so `readlines` inverts the join |
| StoreFile.ReadLinesAppend | ytchan_dl.py:132 | text appended to an empty file or after a newline starts lines of its own |
| StoreFile.SerializeWholeLine | ytchan_dl.py:209 | the line written for a storable record is one whole line |
| StoreFile.ReadWritten | ytchan_dl.py:209 | the text written for storable records reads back as their lines |
| StoreFile.WrittenNoReturn | ytchan_dl.py:209 | the text written for storable records holds no carriage return, so the text-mode read leaves it as written |
| StoreFile.AppendGluesToUnterminatedLine | ytchan_dl.py:132 | on text whose line ends are "\n", appending a line after a last line without a newline adds no line |
| StoreFile.AppendGluesToUnterminatedText | ytchan_dl.py:114-132 | appending a written line to a file whose last character is neither "\n" nor "\r" adds no line when read back: the line glues onto the file's last line |
| StoreFile.AppendAfterReturn | ytchan_dl.py:114-132 | appending a written line to a file that ends in "\r" adds exactly that line when read back |
| StoreFile.ReloadAfterAppend | ytchan_dl.py:114-121 | a loadable file that ends in a newline (or is empty), extended with the text of storable records, reads in text mode and loads as its records followed by those |
| Channels.FindId | ytchan_dl.py:43-51 | the segment found is the first at or after the start that is outside NON_CHANNELID_VOCAB; none is found exactly when all remaining segments are in it |
| Channels.ExtractChannelId | ytchan_dl.py:22-53 | fails exactly when every segment of the split URL is in the vocabulary; the kind is channel exactly when some segment is "channel"; the id is the first non-vocabulary segment and holds no '/' or '?' |
| Channels.NoSegmentHitsNonIdPart | ytchan_dl.py:19 | no segment of a split URL contains an entry of NON_CHANNELID_PARTS, since each entry holds a '?' |
| Channels.FindIdSkippingAgrees | ytchan_dl.py:43-49 | from any position, a search that also skips segments holding a NON_CHANNELID_PARTS entry finds the same segment |
| Channels.SkippingPartsAgrees | ytchan_dl.py:45-47 | honouring the dead NON_CHANNELID_PARTS check would not change the chosen id |
| Channels.VideosUrl | ytchan_dl.py:135 | the uploads URL of a reference; its segments are scheme, empty segment, host, kind, id and "videos" (`VideosUrlParts`) and it resolves back to the reference (`ResolveVideosUrl`) |
| Channels.VideosUrlJoin | ytchan_dl.py:135 | the uploads URL is the '/'-join of scheme, empty segment, host, kind, id and "videos" |
| Channels.VideosUrlParts | ytchan_dl.py:135 | the uploads URL of a valid id splits back into exactly its six segments |
| Channels.ChannelSegment | ytchan_dl.py:37-40 | among a listing URL's segments, "channel" occurs exactly when the kind is channel |
| Channels.ResolveListingParts | ytchan_dl.py:37-49 | on a listing URL's segments followed by anything without "channel", the id is the fifth segment and the kind is the reference's |
| Channels.ResolveVideosUrl | ytchan_dl.py:135 | the uploads URL of a resolved reference resolves back to that reference |
| Channels.OldestFirstParts | ytchan_dl.py:145 | appending the oldest-first query adds exactly one segment to any URL's split |
| Channels.ResolveOldestFirstUrl | ytchan_dl.py:145 | the oldest-first URL resolves to the same channel, so both passes address the channel named |
| VideoCount.SignOf | ytchan_dl.py:64 | the sign written back in front of the rest gives the argument again ("-" for -1; nothing or "+" for 1), and the rest is the argument only when it has no leading sign, so exactly one leading sign is consumed |
| VideoCount.ParsePyInt | ytchan_dl.py:64 | `int` succeeds exactly when the text holds no information separator (U+001C..U+001F, which `str.isspace()` counts as whitespace but `int` neither skips nor accepts) and the stripped text, after an optional sign, is digits where single underscores may separate digits; its value is stated by `ParsePyIntValue` |
| VideoCount.ParsePyIntValue | ytchan_dl.py:64 | whitespace that `int` skips, an optional sign and underscore-separated digits parse to the digits' value with the underscores dropped, negated exactly for "-" |
| VideoCount.ParseNegativeDecimal | ytchan_dl.py:64 | a "-" before the decimal form of a count, with any whitespace that `int` skips around it, reads back as the negated count |
| VideoCount.ParseVideoCount | ytchan_dl.py:64 | the count parse of line 64: a comma-grouped count followed by words reads back as the count (`CountRoundTrip`), text that starts with a word fails (`WordsFailToParse`), and so does a first word holding an information separator (`SeparatorInFirstWordFails`) |
| VideoCount.DecimalValue | ytchan_dl.py:64 | the decimal form of a count denotes that count |
| VideoCount.AppendPad3 | ytchan_dl.py:64 | three more digits multiply the count by a thousand and add them |
| VideoCount.UngroupedIsDecimal | ytchan_dl.py:64 | removing the commas of the comma-grouped form leaves the decimal form |
| VideoCount.ParseDecimal | ytchan_dl.py:64 | `int` reads the decimal form of a count back as that count |
| VideoCount.CountRoundTrip | ytchan_dl.py:63-64 | a count shown comma-grouped and followed by a space and any words parses back as that count |
| VideoCount.WordsFailToParse | ytchan_dl.py:64 | a meta text whose first character is not a digit, whitespace, a sign or a comma, such as "No videos", raises `ValueError` |
| VideoCount.NoVideosFails | ytchan_dl.py:64 | the display "No videos" raises `ValueError` |
| VideoCount.SeparatorInFirstWordFails | ytchan_dl.py:64 | an information separator anywhere in the text before the first space raises `ValueError`, also at the word's edge where `strip()` would have removed it |
| VideoCount.LeadingSeparatorFails | ytchan_dl.py:64 | the display "\x1c5 videos" raises `ValueError` |
| Listing.ExtractRecord | ytchan_dl.py:196-198 | an entry extracts exactly when it has a session link with an href and a meta list of exactly two items; the record is the absolute href, the title (the text "None" when the link has none, as the f-string writes it) and the second item; a link without an href fails with the `TypeError` of line 196 |
| Listing.ExtractAndAppendLinks | ytchan_dl.py:189-211 | the three lists grow by exactly the appended records, in lockstep, and the lines written are those records' lines in the same order |
| Listing.WalkMeetsSpec | ytchan_dl.py:194-207 | the records appended are the longest prefix of the page whose entries extract to URLs not known before them; the end is explained by the next entry: none left, known URL, or extraction error; a duplicate-free URL list stays duplicate-free |
| Listing.AppendedConcat | ytchan_dl.py:204-209 | growing the lists and the written lines batch by batch is growing them by the concatenated batch |
| Listing.FirstEntryDecides | ytchan_dl.py:199-202 | a page whose first entry is known appends nothing and stops; one whose first entry is new appends it first |
| Listing.FreshChain | ytchan_dl.py:200-206 | two fresh batches in a row are one fresh batch grown onto the lists |
| Listing.StepConcat | ytchan_dl.py:194-207 | a fresh first record followed by the longest fresh prefix of the rest is the longest fresh prefix of the page |
| Listing.PrefixUnique | ytchan_dl.py:194-207 | at most one appended prefix and end meet the page specification |
| Listing.PageStepCharacterised | ytchan_dl.py:189-211 | an outcome meets the page specification exactly when it is the outcome of the walk |
| Listing.WellFormedPageStops | ytchan_dl.py:199-202 | on a page of well-formed entries, the stop signal is raised exactly when the page's records are not all fresh; otherwise the whole page is appended |
| Listing.WalkConcat | ytchan_dl.py:194-207 | walking two pages in turn, the second only when the first was appended in full, is walking their concatenation |
| Pagination.FirstLoadMore | ytchan_dl.py:164-165 | the link found is the first non-empty load-more attribute, and none is found exactly when every attribute is absent or empty |
| Pagination.NextLink | ytchan_dl.py:184-185 | a widget yields a continuation exactly when its first button has the attribute, and the link is the absolute form of it |
| Pagination.Scroll | ytchan_dl.py:168-187 | the loop grows the lists by fresh records only, consumes no payload it was not given, returns `True` only after a payload with an empty widget, and reports a missing answer only after consuming every payload |
| Pagination.ScrollAgrees | ytchan_dl.py:168-187 | the loop appends what one walk over every entry of the consumed payloads appends, and ends as that walk does |
| Pagination.ScrollRequests | ytchan_dl.py:168-185 | the loop POSTs the chain of continuation links, each named by the widget of the payload answering the POST before, one per consumed payload |
| Pagination.FetchAndScroll | ytchan_dl.py:152-187 | a pass grows the lists by fresh records only and returns `True` only after a payload with an empty widget; it raises for a missing load-more link exactly when its first page was appended in full and has no truthy attribute |
| Pagination.FetchAgrees | ytchan_dl.py:152-187 | a pass appends what one walk over the first page and every consumed payload appends, and ends as that walk does |
| Pagination.FetchKeepsFirstPage | ytchan_dl.py:158-162 | a pass keeps what its first page appended, and a first page that meets a known video ends the pass after one GET with a falsy result |
| Pagination.FetchRequests | ytchan_dl.py:155-170 | a pass starts with the GET of the listing and POSTs anything only when the first page was appended in full and names a continuation; the POSTs then follow the continuation chain |
| Uploads.Decide | ytchan_dl.py:101-111 | the user is asked exactly when the file exists and overwrite was requested; the file is emptied exactly on the reply "y"; the bar is shown exactly when the file is new or emptied |
| Uploads.OutfileIsTxt | ytchan_dl.py:96-98 | the output path is a `.txt` path by `splitext`: the default channel id plus ".txt" when the id has a character other than a dot, and a given name when the command line accepted it |
| Uploads.KeptText | ytchan_dl.py:101-116 | the text read is the file's text when it exists and was not emptied, and nothing otherwise; a file that loads any record was kept and shows no bar (`KeptFileShowsNoBar`) |
| Uploads.KeptFileShowsNoBar | ytchan_dl.py:101-125 | a file that loads any record exists and was kept, so the run shows no bar and makes no search request |
| Uploads.Count | ytchan_dl.py:63-64 | no search result gives `NoSearchResult`; otherwise the count is read exactly when `int` accepts the meta text, and it is `int`'s value; every failure is one of those two |
| Uploads.CountReadsDisplay | ytchan_dl.py:63-64 | the count shown comma-grouped before a space is the count the run reads, and a display that starts with a word makes the run fail with the parse error |
| Uploads.Search | ytchan_dl.py:124-125 | the search request is made exactly when the bar is shown; a resumed file shows none (`ResumeStopsAtKnown`), a new one does (`PassSelection`) |
| Uploads.BarTotal | ytchan_dl.py:124-129 | the bar's total is the count read when the bar is shown and absent otherwise; it decides the oldest-first pass (`Passes`) |
| Uploads.Passes | ytchan_dl.py:132-150 | the file gets exactly the appended lines; the forward pass's requests and records come first; the oldest-first GET is made exactly when the forward pass returned `True` with a bar whose count is below the video count; otherwise the forward pass decides the outcome, with `pbar.n` crashing without a bar |
| Uploads.Backward | ytchan_dl.py:143-150 | the oldest-first pass keeps the forward records and requests, GETs the oldest-first URL next and appends only fresh records |
| Uploads.AfterLoad | ytchan_dl.py:123-150 | after the load, the run appends only fresh records; it fails reading the count exactly when the bar is shown and the count cannot be read, and then it has made only the search request and left the files as they were; otherwise the file is the kept text followed by the appended lines |
| Uploads.FromFile | ytchan_dl.py:113-121 | reading and everything after it change no file but the output file |
| Uploads.Resolved | ytchan_dl.py:96-150 | after resolution, the run writes only to its output path and cannot fail on the URL |
| Uploads.Run | ytchan_dl.py:92-150 | a run fails on the channel URL exactly when resolution fails, and then touches no file and makes no request; no file but the output file ever changes |
| Uploads.AfterLoadSelection | ytchan_dl.py:124-150 | after the load: the search request (with a bar), then the forward pass, then the oldest-first pass exactly under the count condition of line 143 |
| Uploads.AfterLoadBarCrash | ytchan_dl.py:137-143 | after the load, the run crashes on `pbar.n` exactly when there is no bar and the forward pass returned `True` |
| Uploads.ProgressBarCrash | ytchan_dl.py:101-143 | a run crashes on `pbar.n` exactly when the output file existed and was kept and the forward pass returned `True` |
| Uploads.PassSelection | ytchan_dl.py:137-150 | a whole run's requests are the search (with a bar), the forward pass, and the oldest-first pass exactly when the forward pass returned `True` and the bar's count is below the video count; the file ends as the kept text plus the appended lines |
| Uploads.ResumeStopsAtKnown | ytchan_dl.py:101-140 | when the file lists videos and the listing starts with one of them, the run shows no bar, appends nothing, leaves the kept text as it is, ends normally and requests only the first page of the listing |
| Uploads.RerunAppendsNothing | ytchan_dl.py:114-140 | running again without overwrite over the file a run left, with the site unchanged, loads the old and new records and appends nothing |
| Uploads.ReloadWhatRunLeft | ytchan_dl.py:114-121 | the file a run left behind loads as the loaded records followed by the appended ones |
| Uploads.FirstEntryListed | ytchan_dl.py:155-162 | after a run, the first video of the listing is in the file: it was loaded or appended first |
| Uploads.RunKeepsNoDup | ytchan_dl.py:199-206 | a run keeps the URL list duplicate-free when the loaded file was |
| CommandLine.SplitExt | getargs.py:32 | `splitext` cuts the path into a stem and an extension that together are the path; the extension is empty or a dot followed by no dot or slash |
| CommandLine.TxtExtension | getargs.py:32-34 | the extension test accepts exactly the paths ending in ".txt" whose last component has some other character before it |
| CommandLine.HasNonDot | getargs.py:32 | the loop of `splitext` that looks for a character other than a dot before the last dot finds one exactly when one exists |
| CommandLine.HelpFor | getargs.py:50-59 | a topic is rejected exactly when it is given and is none of the six names; no topic asks for the general help |
| CommandLine.GetArgs | getargs.py:16-68 | the loop with its skip flag computes what the argument-by-argument scan defines |
| CommandLine.Scan | getargs.py:16-68 | the scan of the arguments from a position; it depends only on the arguments from there on (`ScanShift`) and its results are characterised by `ScanFindings` |
| CommandLine.Parse | getargs.py:12-68 | the scan from the first argument with empty defaults; `ParsedArgs` states what a successful parse holds |
| CommandLine.ScanShift | getargs.py:17-23 | the scan from a position depends only on the arguments from that position on |
| CommandLine.OutfileOption | getargs.py:26-36 | `-o` at the end raises; `-o PATH` sets the output path to a `.txt` path and skips it, and raises for any other path |
| CommandLine.OverwriteOption | getargs.py:39-40 | `-w` sets the overwrite flag and consumes nothing more |
| CommandLine.HelpOption | getargs.py:43-61 | `-h` ends the scan with the help for the next argument, the general help when there is none, and raises for an unknown topic |
| CommandLine.UrlArgument | getargs.py:64-68 | any other argument is appended to the URL when it is last and raises anywhere else |
| CommandLine.LastOutfileWins | getargs.py:28 | a later `-o` replaces an earlier one |
| CommandLine.OptionsCommute | getargs.py:26-40 | `-w` and `-o PATH` give the same result in either order |
| CommandLine.ScanFindings | getargs.py:16-68 | a successful scan's URL is the last argument, its output path a `.txt` path that follows some `-o`, and its overwrite flag was given |
| CommandLine.ParsedArgs | getargs.py:12-68 | a successful parse's URL is empty or the last argument, its output path was given after `-o` and has a `.txt` extension, and overwrite is set only if `-w` was given |
| CommandLine.Kwargs | getargs.py:70-74 | the keyword dictionary has exactly the three constructor keywords |
| CommandLine.KwargsMirror | getargs.py:70-74 | the keyword dictionary reads back as the three parsed fields |
| CommandLine.NoArguments | getargs.py:12-14 | without arguments the URL is empty, there is no output path and overwrite is off |

## Left out

- HTTP: the session, its headers and the requests themselves. Each pass's answers are
  inputs, and the model records only the request kinds and URLs, in order. A continuation
  the inputs do not answer ends the pass with `NoResponse`, which stands for a transport
  failure. JSON decoding and a payload missing `content_html` or `load_more_widget_html`
  are not modelled.
- HTML: parsing and the CSS/XPath selectors. A page is its entries and its buttons'
  `data-uix-load-more-href` attributes. An entry is its first session link and its
  meta-list texts. A missing element is an extraction error.
- The channel title looked up at line 67, which the run only prints. When the search
  result has no tile link, its `IndexError` ends the run before any pass; the model
  does not have that outcome and reads the count alone.
- `print`, the tqdm bar's drawing and `pbar.close()`. The bar's count is the number of
  records the forward pass appended. With a total of zero or less the bar is falsy and is
  never updated, so the comparison at line 143 is still `|appended| < count`.
- `input()`: the reply is a parameter.
- The file system: files are a map from path to text. Truncation, `open(..., 'a')`
  creating the file, and the flushes are map updates. UTF-8 encoding and decoding are
  not modelled: text is a sequence of characters.
- Writing in text mode turns "\n" into `os.linesep`. The model takes the POSIX
  `os.linesep`, "\n", so a written line ends in "\n". Reading translates "\r\n" and "\r"
  (`StoreFile.ReadText`).
- A session link without a title gives `None` in the title list at line 205 but the text
  "None" in the file. The model keeps one title, the text "None", in both places.
- Class-level lists (lines 88-90) are shared by every instance in one process. The model
  starts every run from empty lists, which matches the one instance the script creates.
- Python's `int` accepts non-ASCII Unicode digits. The model accepts ASCII digits only.
- `os.path.splitext` is modelled for POSIX paths. Windows separators are not.
- The `__main__` blocks of both files and the `sys.argv` default of `GetArgs`: the
  arguments are a parameter.
- CommandLine.HelpFor: the help texts themselves are not modelled. They are undefined
  names in getargs.py, so a help request is a terminal outcome.
- Listing.ExtractAndAppendLinks: its own contract states only the lockstep growth of the
  lists and the written lines. The longest-fresh-prefix property lives in
  `Listing.WalkMeetsSpec`, which keeps the heavily used function cheap to reason about.
- StoreFile.ReadLines: it has no contract of its own. Its properties are the lemmas
  `StoreFile.FlattenReadLines`, `StoreFile.ReadFlatten` and `StoreFile.ReadLinesAppend`.
  The same holds for `StoreFile.ReadText`, `LineFormat.Serialize`, `LineFormat.ParseLine`,
  `LineFormat.Load`, `VideoCount.ParseVideoCount`, `Channels.VideosUrl`, `Text.Join`,
  `Uploads.Search`, `Uploads.BarTotal`, `Uploads.KeptText`, `CommandLine.Scan` and
  `CommandLine.Parse`: the lemmas named in their rows state what they promise.
- Text.Remove: its own contract states only that the result is no longer and has no `c`.
  What it keeps, in order, is `Text.RemoveSnoc`, `Text.RemoveAppend` and
  `Text.RemoveAbsent`.
- Pagination.Scroll: its agreement with the page walk and its request chain are the
  lemmas `Pagination.ScrollAgrees` and `Pagination.ScrollRequests`, not its own contract.
- Uploads.RerunAppendsNothing: proved only when four things hold. The kept file ends in a
  newline or is empty (a file ending in "\r" also takes the appended lines whole,
  `StoreFile.AppendAfterReturn`, but the rerun lemma does not cover it). The records
  found are storable. The first listing entry extracts. The count can be read when the
  bar is shown.

=== FILE: channel.dfy ===
/** Resolution of a user-supplied channel URL into the channel's kind and id
    (`extract_channel_id` in ytchan_dl.py), and the listing URLs built back from them. */
module Channels {
  import opened Results
  import opened Text

  const Youtube: string := "https://www.youtube.com"

  /** Segments that never name a channel. */
  const NonChannelIdVocab: seq<string> :=
    ["https:", "", "www.youtube.com", "channel", "user", "videos", "featured",
     "playlists", "community", "channels", "about"]

  /** Query fragments the resolver looks for inside a candidate segment. */
  const NonChannelIdParts: seq<string> := ["videos?view=0", "search?query=", "?view_as=subscriber"]

  /** The separators of `re.split('/|\?', url)`. */
  const UrlDelimiters: set<char> := {'/', '?'}

  /** Query appended to the uploads URL for the oldest-first listing. */
  const OldestFirstQuery: string := "?view=0&sort=da&flow=grid"

  datatype ChannelKind = Channel | User

  datatype ChannelRef = ChannelRef(kind: ChannelKind, id: string)

  /** `ValueError('Invalid channel url!')`. */
  datatype ChannelError = InvalidChannelUrl

  function UrlParts(url: string): (r: seq<string>) {
    Split(url, UrlDelimiters)
  }

  function KindName(kind: ChannelKind): (r: string) {
    match kind
    case Channel => "channel"
    case User => "user"
  }

  /** The first index at or after `i` whose segment is outside the vocabulary. */
  function FindId(parts: seq<string>, i: nat): (r: Option<nat>)
    requires i <= |parts|
    ensures r.Some? ==> i <= r.value < |parts| && parts[r.value] !in NonChannelIdVocab
    ensures r.Some? ==> forall j :: i <= j < r.value ==> parts[j] in NonChannelIdVocab
    ensures r.None? ==> forall j :: i <= j < |parts| ==> parts[j] in NonChannelIdVocab
    decreases |parts| - i
  {
    if i == |parts| then None
    else if parts[i] !in NonChannelIdVocab then Some(i)
    else FindId(parts, i + 1)
  }

  /** `extract_channel_id`. The loop over `NonChannelIdParts` inside the source's id
      search only breaks out of itself, so it has no counterpart here; `SkippingPartsAgrees`
      shows that honouring it would not change the answer. */
  function ExtractChannelId(url: string): (r: Result<ChannelRef, ChannelError>)
    ensures r.Err? <==> forall k :: 0 <= k < |UrlParts(url)| ==> UrlParts(url)[k] in NonChannelIdVocab
    ensures r.Ok? ==> (r.value.kind == Channel <==> "channel" in UrlParts(url))
    ensures r.Ok? ==> exists k :: 0 <= k < |UrlParts(url)| && UrlParts(url)[k] == r.value.id
                                && forall j :: 0 <= j < k ==> UrlParts(url)[j] in NonChannelIdVocab
    ensures r.Ok? ==> r.value.id !in NonChannelIdVocab && FreeOf(r.value.id, UrlDelimiters)
  {
    var parts := UrlParts(url);
    SplitPiecesFree(url, UrlDelimiters);
    var kind := if "channel" in parts then Channel else User;
    match FindId(parts, 0)
    case None => Err(InvalidChannelUrl)
    case Some(k) => Ok(ChannelRef(kind, parts[k]))
  }

  /** The newest-first uploads listing of a channel. */
  function VideosUrl(ref: ChannelRef): (r: string) {
    Youtube + "/" + KindName(ref.kind) + "/" + ref.id + "/videos"
  }

  /** An id that the resolver can return: outside the vocabulary and free of separators. */
  predicate ValidId(id: string) {
    id !in NonChannelIdVocab && FreeOf(id, UrlDelimiters)
  }

  // ---------------------------------------------------------------------------
  // The dead NON_CHANNELID_PARTS check

  /** Whether some entry of `NonChannelIdParts` occurs in `part`. */
  predicate HitsNonIdPart(part: string) {
    exists k :: 0 <= k < |NonChannelIdParts| && Contains(part, NonChannelIdParts[k])
  }

  /** The id search the inner loop over `NON_CHANNELID_PARTS` (lines 45-47) would make if
      its `break` skipped the segment: skip vocabulary segments and segments that contain
      one of `NonChannelIdParts`. */
  function FindIdSkippingParts(parts: seq<string>, i: nat): (r: Option<nat>)
    requires i <= |parts|
    decreases |parts| - i
  {
    if i == |parts| then None
    else if parts[i] !in NonChannelIdVocab && !HitsNonIdPart(parts[i]) then Some(i)
    else FindIdSkippingParts(parts, i + 1)
  }

  /** A segment of a split URL never contains an entry of `NonChannelIdParts`: each
      entry holds a `?`, which is a separator. */
  lemma {:induction false} NoSegmentHitsNonIdPart(url: string, k: nat)
    requires k < |UrlParts(url)|
    ensures !HitsNonIdPart(UrlParts(url)[k])
  {
    var part := UrlParts(url)[k];
    SplitPiecesFree(url, UrlDelimiters);
    assert NonChannelIdParts[0][6] == '?';
    assert NonChannelIdParts[1][6] == '?';
    assert NonChannelIdParts[2][0] == '?';
    NotContainedIfSeparated(part, NonChannelIdParts[0], UrlDelimiters, 6);
    NotContainedIfSeparated(part, NonChannelIdParts[1], UrlDelimiters, 6);
    NotContainedIfSeparated(part, NonChannelIdParts[2], UrlDelimiters, 0);
  }

  lemma {:induction false} FindIdSkippingAgrees(url: string, i: nat)
    requires i <= |UrlParts(url)|
    ensures FindIdSkippingParts(UrlParts(url), i) == FindId(UrlParts(url), i)
    decreases |UrlParts(url)| - i
  {
    if i < |UrlParts(url)| {
      NoSegmentHitsNonIdPart(url, i);
      FindIdSkippingAgrees(url, i + 1);
    }
  }

  /** Honouring the `NonChannelIdParts` check picks the same segment as the code does. */
  lemma SkippingPartsAgrees(url: string)
    ensures FindIdSkippingParts(UrlParts(url), 0) == FindId(UrlParts(url), 0)
  {
    FindIdSkippingAgrees(url, 0);
  }

  // ---------------------------------------------------------------------------
  // Resolving the URLs built from a reference

  /** Joining six segments, the second empty, with `/`. */
  lemma JoinSixSegments(h: string, w: string, kind: string, id: string, v: string)
    ensures Join([h, "", w, kind, id, v], '/') == h + "/" + "/" + w + "/" + kind + "/" + id + "/" + v
  {
    var s := "/";
    assert s == ['/'];
    JoinCons(id, [v], '/');
    var j1 := id + s + v;
    JoinCons(kind, [id, v], '/');
    var j2 := kind + s + j1;
    JoinCons(w, [kind, id, v], '/');
    var j3 := w + s + j2;
    JoinCons("", [w, kind, id, v], '/');
    var j4 := "" + s + j3;
    assert j4 == s + j3;
    JoinCons(h, ["", w, kind, id, v], '/');
    assert ["", w, kind, id, v] == [""] + [w, kind, id, v];
    assert [h, "", w, kind, id, v] == [h] + ["", w, kind, id, v];
    assert h + s + j4 == h + s + s + w + s + kind + s + id + s + v;
  }

  /** The uploads URL is the `/`-join of its segments. */
  lemma VideosUrlJoin(kind: string, id: string)
    ensures Join(["https:", "", "www.youtube.com", kind, id, "videos"], '/')
         == Youtube + "/" + kind + "/" + id + "/videos"
  {
    JoinSixSegments("https:", "www.youtube.com", kind, id, "videos");
    var y := "https:" + "/" + "/" + "www.youtube.com";
    assert y == Youtube;
    var v := "videos";
    assert "/" + v == "/videos";
    assert y + "/" + kind + "/" + id + "/" + v == y + "/" + kind + "/" + id + ("/" + v);
  }

  lemma VideosUrlParts(ref: ChannelRef)
    requires ValidId(ref.id)
    ensures UrlParts(VideosUrl(ref)) == ListingParts(ref)
  {
    var kind, id := KindName(ref.kind), ref.id;
    var parts := ["https:", "", "www.youtube.com", kind, id, "videos"];
    VideosUrlJoin(kind, id);
    forall k | 0 <= k < |parts|
      ensures FreeOf(parts[k], UrlDelimiters)
    {
    }
    SplitJoin(parts, '/', UrlDelimiters);
  }

  /** The segments of a listing URL. */
  function ListingParts(ref: ChannelRef): (r: seq<string>) {
    ["https:", "", "www.youtube.com", KindName(ref.kind), ref.id, "videos"]
  }

  /** Only the kind segment of a listing URL can read "channel". */
  lemma ChannelSegment(ref: ChannelRef)
    requires ValidId(ref.id)
    ensures "channel" in ListingParts(ref) <==> ref.kind == Channel
  {
    var parts := ListingParts(ref);
    if "channel" in parts {
      var k :| 0 <= k < |parts| && parts[k] == "channel";
      assert k == 3;
    }
  }

  /** On the segments of a listing URL, the resolver stops at the id. */
  lemma ResolveListingParts(ref: ChannelRef, extra: seq<string>)
    requires ValidId(ref.id) && "channel" !in extra
    ensures var parts := ListingParts(ref) + extra;
      && FindId(parts, 0) == Some(4)
      && ("channel" in parts <==> ref.kind == Channel)
  {
    var prefix := ListingParts(ref);
    var parts := prefix + extra;
    assert parts[..6] == prefix;
    assert parts[0] in NonChannelIdVocab && parts[1] in NonChannelIdVocab && parts[2] in NonChannelIdVocab;
    assert parts[3] in NonChannelIdVocab && parts[4] == ref.id;
    assert FindId(parts, 3) == Some(4);
    ChannelSegment(ref);
  }

  /** The uploads URL of a resolved channel resolves to that channel again. */
  lemma ResolveVideosUrl(ref: ChannelRef)
    requires ValidId(ref.id)
    ensures ExtractChannelId(VideosUrl(ref)) == Ok(ref)
  {
    VideosUrlParts(ref);
    ResolveListingParts(ref, []);
    assert ListingParts(ref) + [] == UrlParts(VideosUrl(ref));
  }

  /** The segment the oldest-first query adds. */
  const OldestFirstSegment: string := "view=0&sort=da&flow=grid"

  lemma OldestFirstQuerySegment()
    ensures OldestFirstQuery == ['?'] + OldestFirstSegment
    ensures FreeOf(OldestFirstSegment, UrlDelimiters)
  {
  }

  /** The query of the oldest-first URL adds one segment after the uploads URL's. */
  lemma OldestFirstParts(url: string)
    ensures UrlParts(url + OldestFirstQuery) == UrlParts(url) + [OldestFirstSegment]
  {
    OldestFirstQuerySegment();
    assert url + OldestFirstQuery == url + ['?'] + OldestFirstSegment;
    SplitAppendPiece(url, '?', OldestFirstSegment, UrlDelimiters);
  }

  /** The oldest-first listing URL resolves to the same channel, so both passes of a run
      address the channel the user named. */
  lemma ResolveOldestFirstUrl(ref: ChannelRef)
    requires ValidId(ref.id)
    ensures ExtractChannelId(VideosUrl(ref) + OldestFirstQuery) == Ok(ref)
  {
    VideosUrlParts(ref);
    OldestFirstParts(VideosUrl(ref));
    assert "channel" != OldestFirstSegment;
    ResolveListingParts(ref, [OldestFirstSegment]);
  }
}

=== FILE: getargs.dfy ===
/** The command line of the scraper (`GetArgs`, getargs.py:5-74): a left-to-right scan
    over the arguments that recognises `-o`/`--outfile` with a `.txt` path, the flag
    `-w`/`--overwrite-outfile`, `-h`/`--help` with an optional topic, and the channel URL
    as the last argument. */
module CommandLine {
  import opened Results
  import opened Text

  /** The three fields the scan fills in. */
  datatype Args = Args(channelUrl: string, outfile: Option<string>, overwrite: bool)

  /** The help texts the scan would print. */
  datatype HelpTopic = AllHelp | OutfileHelp | OverwriteHelp | TrackProgressHelp

  /** The exceptions the scan raises. */
  datatype ArgError =
    | MissingOutfileValue
    | NotTxtOutfile(path: string)
    | InvalidHelpTopic(topic: string)
    | InvalidArguments

  /** How a scan ends. The `HELP_*` names getargs.py prints are not defined anywhere, so
      printing any help raises `NameError` and nothing after it runs: a help request ends
      the scan. */
  datatype ArgsOutcome = Parsed(args: Args) | HelpRequested(topic: HelpTopic) | Failed(error: ArgError)

  /** getargs.py:12-14. */
  const Defaults: Args := Args("", None, false)

  const OutfileFlags: set<string> := {"-o", "--outfile"}
  const OverwriteFlags: set<string> := {"-w", "--overwrite-outfile"}
  const HelpFlags: set<string> := {"-h", "--help"}
  const TxtExt: string := ".txt"

  predicate IsFlag(arg: string) {
    arg in OutfileFlags || arg in OverwriteFlags || arg in HelpFlags
  }

  // ---------------------------------------------------------------------------
  // os.path.splitext (posixpath)

  /** The while loop of `genericpath._splitext`: is some character of `p[i..dot]` not a
      dot? */
  function HasNonDot(p: string, i: int, dot: int): (b: bool)
    requires 0 <= i && dot <= |p|
    ensures b <==> exists k :: i <= k < dot && p[k] != '.'
    decreases dot - i
  {
    if i >= dot then false
    else if p[i] != '.' then true
    else HasNonDot(p, i + 1, dot)
  }

  /** `os.path.splitext(p)` on a POSIX system: the extension starts at the last dot after
      the last slash, unless everything between that slash and the dot is dots (a leading
      dot marks a hidden file, not an extension). */
  function SplitExt(p: string): (r: (string, string))
    ensures r.0 + r.1 == p
    ensures r.1 == [] || (r.1[0] == '.' && FreeOf(r.1[1..], {'.', '/'}))
  {
    var sep := RFind(p, '/');
    var dot := RFind(p, '.');
    if dot > sep && HasNonDot(p, sep + 1, dot) then
      assert p[..dot] + p[dot..] == p;
      assert forall k :: 0 <= k < |p[dot..][1..]| ==> p[dot..][1..][k] == p[dot + 1 + k];
      (p[..dot], p[dot..])
    else (p, [])
  }

  /** A path with a `.txt` extension, stated without `splitext`: it ends in ".txt" and the
      last path component before that has a character other than a dot. */
  predicate TxtPath(p: string) {
    && EndsWith(p, TxtExt)
    && exists j :: 0 <= j < |p| - |TxtExt| && p[j] != '.' && p[j] != '/' && FreeOf(p[j..|p| - |TxtExt|], {'/'})
  }

  /** The extension test of getargs.py:32-34 accepts exactly the `.txt` paths. */
  lemma TxtExtension(p: string)
    ensures SplitExt(p).1 == TxtExt <==> TxtPath(p)
  {
    var sep := RFind(p, '/');
    var dot := RFind(p, '.');
    if SplitExt(p).1 == TxtExt {
      assert dot > sep && HasNonDot(p, sep + 1, dot);
      assert p[dot..] == TxtExt;
      assert dot == |p| - |TxtExt|;
      var j :| sep + 1 <= j < dot && p[j] != '.';
      assert p[|p| - |TxtExt|..] == TxtExt;
      var stem := p[j..|p| - |TxtExt|];
      assert FreeOf(stem, {'/'}) by {
        forall k | 0 <= k < |stem|
          ensures stem[k] != '/'
        {
          assert stem[k] == p[j + k];
        }
      }
    }
    if TxtPath(p) {
      var n := |p| - |TxtExt|;
      var j :| 0 <= j < n && p[j] != '.' && p[j] != '/' && FreeOf(p[j..n], {'/'});
      assert p[n..] == TxtExt;
      assert p[n] == '.' && p[n + 1] == 't' && p[n + 2] == 'x' && p[n + 3] == 't';
      assert dot == n;
      assert forall k :: j <= k < |p| ==> p[k] != '/' by {
        forall k | j <= k < |p|
          ensures p[k] != '/'
        {
          if k < n {
            assert p[j..n][k - j] == p[k];
          }
        }
      }
      assert sep < j;
      assert HasNonDot(p, sep + 1, dot);
      assert p[dot..] == TxtExt;
    }
  }

  // ---------------------------------------------------------------------------
  // The scan

  /** The help text asked for: `-h` alone, or followed by one of the six topic names
      (getargs.py:50-59); `None` for any other topic. */
  function HelpFor(topic: Option<string>): (h: Option<HelpTopic>)
    ensures h.None? <==> topic.Some? && topic.value !in {"o", "outfile", "w", "overwrite-outfile", "tp", "track-progress"}
    ensures h == Some(AllHelp) <==> topic.None?
  {
    match topic
    case None => Some(AllHelp)
    case Some(t) =>
      if t in {"o", "outfile"} then Some(OutfileHelp)
      else if t in {"w", "overwrite-outfile"} then Some(OverwriteHelp)
      else if t in {"tp", "track-progress"} then Some(TrackProgressHelp)
      else None
  }

  /** The scan from position `i` on, with the fields `acc` set so far: the reference
      definition, one argument (or an option and its value) at a time. */
  function Scan(args: seq<string>, i: nat, acc: Args): (r: ArgsOutcome)
    requires i <= |args|
    decreases |args| - i
  {
    if i == |args| then Parsed(acc)
    else
      var arg := args[i];
      if arg in OutfileFlags then
        if i + 1 == |args| then Failed(MissingOutfileValue)
        else if SplitExt(args[i + 1]).1 != TxtExt then Failed(NotTxtOutfile(args[i + 1]))
        else Scan(args, i + 2, acc.(outfile := Some(args[i + 1])))
      else if arg in OverwriteFlags then Scan(args, i + 1, acc.(overwrite := true))
      else if arg in HelpFlags then
        var topic := if i + 1 < |args| then Some(args[i + 1]) else None;
        match HelpFor(topic)
        case Some(h) => HelpRequested(h)
        case None => Failed(InvalidHelpTopic(topic.value))
      else if i == |args| - 1 then Scan(args, i + 1, acc.(channelUrl := acc.channelUrl + arg))
      else Failed(InvalidArguments)
  }

  function Parse(args: seq<string>): (r: ArgsOutcome) {
    Scan(args, 0, Defaults)
  }

  /** `GetArgs(cmd_args)`: the for loop of getargs.py:16-68 with its skip flag. */
  method GetArgs(cmdArgs: seq<string>) returns (r: ArgsOutcome)
    ensures r == Parse(cmdArgs)
  {
    var acc := Defaults;
    var skip := false;
    var i := 0;
    while i < |cmdArgs|
      invariant 0 <= i <= |cmdArgs|
      invariant skip ==> i < |cmdArgs|
      invariant Parse(cmdArgs) == Scan(cmdArgs, if skip then i + 1 else i, acc)
    {
      if skip {
        skip := false;
        i := i + 1;
        continue;
      }
      var arg := cmdArgs[i];
      if arg in OutfileFlags {
        if i + 1 >= |cmdArgs| {
          return Failed(MissingOutfileValue);
        }
        acc := acc.(outfile := Some(cmdArgs[i + 1]));
        var (_, ext) := SplitExt(cmdArgs[i + 1]);
        if ext != TxtExt {
          return Failed(NotTxtOutfile(cmdArgs[i + 1]));
        }
        skip := true;
      } else if arg in OverwriteFlags {
        acc := acc.(overwrite := true);
      } else if arg in HelpFlags {
        var topic := if i + 1 < |cmdArgs| then Some(cmdArgs[i + 1]) else None;
        var h := HelpFor(topic);
        if h.Some? {
          return HelpRequested(h.value);
        }
        return Failed(InvalidHelpTopic(topic.value));
      } else if i == |cmdArgs| - 1 {
        acc := acc.(channelUrl := acc.channelUrl + arg);
      } else {
        return Failed(InvalidArguments);
      }
      i := i + 1;
    }
    return Parsed(acc);
  }

  // ---------------------------------------------------------------------------
  // The scan argument by argument

  /** The scan only looks at what follows its position, and at whether an argument is
      the last: arguments before it do not matter. */
  lemma {:induction false} ScanShift(pre: seq<string>, rest: seq<string>, i: nat, acc: Args)
    requires i <= |rest|
    ensures Scan(pre + rest, |pre| + i, acc) == Scan(rest, i, acc)
    decreases |rest| - i
  {
    var all := pre + rest;
    if i < |rest| {
      assert all[|pre| + i] == rest[i];
      if i + 1 < |rest| {
        assert all[|pre| + i + 1] == rest[i + 1];
      }
      var arg := rest[i];
      if arg in OutfileFlags {
        if i + 1 < |rest| && SplitExt(rest[i + 1]).1 == TxtExt {
          ScanShift(pre, rest, i + 2, acc.(outfile := Some(rest[i + 1])));
        }
      } else if arg in OverwriteFlags {
        ScanShift(pre, rest, i + 1, acc.(overwrite := true));
      } else if arg !in HelpFlags && i == |rest| - 1 {
        ScanShift(pre, rest, i + 1, acc.(channelUrl := acc.channelUrl + arg));
      }
    }
  }

  /** Scanning `[first] + rest`, or `[first, value] + rest`, is scanning `rest` with the
      fields the first argument sets. */
  lemma Drop(first: seq<string>, rest: seq<string>, acc: Args)
    ensures Scan(first + rest, |first|, acc) == Scan(rest, 0, acc)
  {
    ScanShift(first, rest, 0, acc);
  }

  /** `-o PATH`: with a `.txt` path the scan carries on with `outfile` set to it (and the
      path is never read as an argument); otherwise it raises. Without a path it raises
      `IndexError`. */
  lemma OutfileOption(flag: string, path: string, rest: seq<string>, acc: Args)
    requires flag in OutfileFlags
    ensures Scan([flag], 0, acc) == Failed(MissingOutfileValue)
    ensures Scan([flag, path] + rest, 0, acc)
        == if TxtPath(path) then Scan(rest, 0, acc.(outfile := Some(path))) else Failed(NotTxtOutfile(path))
  {
    TxtExtension(path);
    Drop([flag, path], rest, acc.(outfile := Some(path)));
  }

  /** `-w` sets the overwrite flag and takes no value. */
  lemma OverwriteOption(flag: string, rest: seq<string>, acc: Args)
    requires flag in OverwriteFlags
    ensures Scan([flag] + rest, 0, acc) == Scan(rest, 0, acc.(overwrite := true))
  {
    Drop([flag], rest, acc.(overwrite := true));
  }

  /** `-h` ends the scan with the help for the argument after it, or raises for a topic
      it does not know. */
  lemma HelpOption(flag: string, rest: seq<string>, acc: Args)
    requires flag in HelpFlags
    ensures rest == [] ==> Scan([flag], 0, acc) == HelpRequested(AllHelp)
    ensures rest != [] ==>
      Scan([flag] + rest, 0, acc)
      == (match HelpFor(Some(rest[0]))
          case Some(h) => HelpRequested(h)
          case None => Failed(InvalidHelpTopic(rest[0])))
  {
    assert ([flag] + rest)[0] == flag;
    assert rest != [] ==> ([flag] + rest)[1] == rest[0];
  }

  /** Any other argument is the channel URL when it is the last one, and an error
      anywhere else. */
  lemma UrlArgument(arg: string, rest: seq<string>, acc: Args)
    requires !IsFlag(arg)
    ensures Scan([arg] + rest, 0, acc)
        == if rest == [] then Parsed(acc.(channelUrl := acc.channelUrl + arg)) else Failed(InvalidArguments)
  {
    assert ([arg] + rest)[0] == arg;
  }

  /** A later `-o` replaces an earlier one. */
  lemma LastOutfileWins(f1: string, p: string, f2: string, q: string, rest: seq<string>, acc: Args)
    requires f1 in OutfileFlags && f2 in OutfileFlags && TxtPath(p)
    ensures Scan([f1, p, f2, q] + rest, 0, acc) == Scan([f2, q] + rest, 0, acc)
  {
    assert [f1, p, f2, q] + rest == [f1, p] + ([f2, q] + rest);
    OutfileOption(f1, p, [f2, q] + rest, acc);
    OutfileOption(f2, q, rest, acc.(outfile := Some(p)));
    OutfileOption(f2, q, rest, acc);
  }

  /** The options may come in either order. */
  lemma OptionsCommute(w: string, o: string, p: string, rest: seq<string>, acc: Args)
    requires w in OverwriteFlags && o in OutfileFlags
    ensures Scan([w, o, p] + rest, 0, acc) == Scan([o, p, w] + rest, 0, acc)
  {
    assert [w, o, p] + rest == [w] + ([o, p] + rest);
    assert [o, p, w] + rest == [o, p] + ([w] + rest);
    OverwriteOption(w, [o, p] + rest, acc);
    OutfileOption(o, p, rest, acc.(overwrite := true));
    OutfileOption(o, p, [w] + rest, acc);
    OverwriteOption(w, rest, acc.(outfile := Some(p)));
  }

  /** What a successful scan found: the URL is the last argument (or empty), the output
      path is a `.txt` path given after an `-o` flag, and the overwrite flag was on the
      command line. */
  lemma {:induction false} ScanFindings(args: seq<string>, i: nat, acc: Args)
    requires i <= |args|
    requires Scan(args, i, acc).Parsed?
    ensures var a := Scan(args, i, acc).args;
      && (a.channelUrl == acc.channelUrl
          || (0 < |args| && a.channelUrl == acc.channelUrl + args[|args| - 1] && !IsFlag(args[|args| - 1])))
      && (a.outfile == acc.outfile
          || (a.outfile.Some? && TxtPath(a.outfile.value)
              && exists k :: i <= k < |args| - 1 && args[k] in OutfileFlags && args[k + 1] == a.outfile.value))
      && (a.overwrite ==> acc.overwrite || exists k :: i <= k < |args| && args[k] in OverwriteFlags)
    decreases |args| - i
  {
    if i < |args| {
      var arg := args[i];
      if arg in OutfileFlags {
        var next := acc.(outfile := Some(args[i + 1]));
        ScanFindings(args, i + 2, next);
        TxtExtension(args[i + 1]);
      } else if arg in OverwriteFlags {
        ScanFindings(args, i + 1, acc.(overwrite := true));
      } else {
        ScanFindings(args, i + 1, acc.(channelUrl := acc.channelUrl + arg));
      }
    }
  }

  /** `Parse` in terms of `ScanFindings`: a parsed URL is the last argument, a parsed
      output path was given with `-o`, and the overwrite flag was asked for. */
  lemma ParsedArgs(args: seq<string>)
    requires Parse(args).Parsed?
    ensures var a := Parse(args).args;
      && (a.channelUrl == "" || a.channelUrl == args[|args| - 1])
      && (a.outfile.Some? ==>
            && TxtPath(a.outfile.value)
            && exists k :: 0 <= k < |args| - 1 && args[k] in OutfileFlags && args[k + 1] == a.outfile.value)
      && (a.overwrite ==> exists k :: 0 <= k < |args| && args[k] in OverwriteFlags)
  {
    ScanFindings(args, 0, Defaults);
  }

  // ---------------------------------------------------------------------------
  // kwargs

  /** A value of the `kwargs` dictionary. */
  datatype KwValue = Str(s: string) | NoneValue | Bool(b: bool)

  /** `self.kwargs` (getargs.py:70-74): the three fields under the constructor's keyword
      names. */
  function Kwargs(a: Args): (m: map<string, KwValue>)
    ensures m.Keys == {"channel_url", "outfile", "overwrite_outfile"}
  {
    map["channel_url" := Str(a.channelUrl),
        "outfile" := (match a.outfile case None => NoneValue case Some(p) => Str(p)),
        "overwrite_outfile" := Bool(a.overwrite)]
  }

  /** Reading the keyword arguments back, as `ChannelUploads(**kwargs)` binds them. */
  function FromKwargs(m: map<string, KwValue>): (a: Option<Args>) {
    if "channel_url" in m && "outfile" in m && "overwrite_outfile" in m
       && m["channel_url"].Str? && m["overwrite_outfile"].Bool? && !m["outfile"].Bool?
    then
      Some(Args(m["channel_url"].s, (match m["outfile"] case Str(p) => Some(p) case _ => None),
                m["overwrite_outfile"].b))
    else None
  }

  /** `kwargs` mirrors the three fields exactly. */
  lemma KwargsMirror(a: Args)
    ensures FromKwargs(Kwargs(a)) == Some(a)
  {
  }

  /** Without arguments nothing is set: an empty URL, no output path, no overwrite. */
  lemma NoArguments()
    ensures Parse([]) == Parsed(Args("", None, false))
    ensures Kwargs(Defaults) == map["channel_url" := Str(""), "outfile" := NoneValue,
                                    "overwrite_outfile" := Bool(false)]
  {
  }
}

=== FILE: line_format.dfy ===
/** The output file's line format: one record per line, `url\ttitle\tpubdate\n`
    (ytchan_dl.py:209), and the loader that reads an existing file back into the three
    lists with `line.strip().split('\t')` and `zip` (ytchan_dl.py:116-121). The file is a
    sequence of lines. */
module LineFormat {
  import opened Results
  import opened Text
  import opened Records

  const Tab: char := '\t'

  /** Characters that would break a field out of its line or its column. */
  const Breaks: set<char> := {'\t', '\n', '\r'}

  /** The line written for one record. */
  function Serialize(r: VideoRecord): (line: string) {
    r.url + [Tab] + r.title + [Tab] + r.pubdate + "\n"
  }

  /** The lines written for a batch of records, in order. */
  function Lines(recs: seq<VideoRecord>): (r: seq<string>)
    ensures |r| == |recs| && forall i :: 0 <= i < |recs| ==> r[i] == Serialize(recs[i])
  {
    seq(|recs|, i requires 0 <= i < |recs| => Serialize(recs[i]))
  }

  lemma LinesConcat(a: seq<VideoRecord>, b: seq<VideoRecord>)
    ensures Lines(a + b) == Lines(a) + Lines(b)
  {
    var ab := a + b;
    forall i | 0 <= i < |ab|
      ensures Lines(ab)[i] == (Lines(a) + Lines(b))[i]
    {
      if i >= |a| {
        assert ab[i] == b[i - |a|];
      }
    }
  }

  /** The fields of one line as the loader sees them. */
  function ParseLine(line: string): (r: seq<string>) {
    Split(Strip(line), {Tab})
  }

  /** A record whose line reads back as its own three fields: no field holds a tab or a
      line break, the URL does not start with whitespace and the publish date does not end
      with it (`strip()` would eat into them otherwise). */
  predicate Storable(r: VideoRecord) {
    && FreeOf(r.url, Breaks) && FreeOf(r.title, Breaks) && FreeOf(r.pubdate, Breaks)
    && |r.url| > 0 && !IsSpace(r.url[0])
    && |r.pubdate| > 0 && !IsSpace(r.pubdate[|r.pubdate| - 1])
  }

  /** A tab-joined line of break-free fields parses back into those fields, provided the
      line neither starts nor ends (before its newline) in whitespace. */
  lemma ParseJoinedLine(parts: seq<string>)
    requires |parts| >= 1 && forall k :: 0 <= k < |parts| ==> FreeOf(parts[k], Breaks)
    requires |parts[0]| > 0 && !IsSpace(parts[0][0])
    requires var last := parts[|parts| - 1]; |last| > 0 && !IsSpace(last[|last| - 1])
    ensures ParseLine(Join(parts, Tab) + "\n") == parts
  {
    var body := Join(parts, Tab);
    JoinEnds(parts, Tab);
    assert LStrip(body + "\n") == body + "\n";
    RStripDropsTail(body, "\n");
    forall k | 0 <= k < |parts|
      ensures FreeOf(parts[k], {Tab})
    {
    }
    SplitJoin(parts, Tab, {Tab});
  }

  /** A written line parses back into the record's three fields. */
  lemma LineRoundTrip(r: VideoRecord)
    requires Storable(r)
    ensures ParseLine(Serialize(r)) == [r.url, r.title, r.pubdate]
  {
    JoinCons(r.title, [r.pubdate], Tab);
    JoinCons(r.url, [r.title, r.pubdate], Tab);
    assert Serialize(r) == Join([r.url, r.title, r.pubdate], Tab) + "\n";
    ParseJoinedLine([r.url, r.title, r.pubdate]);
  }

  // ---------------------------------------------------------------------------
  // Loading an existing file

  /** `zip(*rows)` followed by unpacking into three names fails with a `ValueError` unless
      the shortest row has exactly three fields. */
  datatype LoadError = UnpackMismatch(fields: nat)

  /** The length of the shortest row: the number of tuples `zip(*rows)` produces. */
  function MinLen(rows: seq<seq<string>>): (m: nat)
    requires |rows| > 0
    ensures forall i :: 0 <= i < |rows| ==> m <= |rows[i]|
    ensures exists i :: 0 <= i < |rows| && |rows[i]| == m
  {
    if |rows| == 1 then |rows[0]|
    else
      var m := MinLen(rows[1..]);
      assert forall i :: 1 <= i < |rows| ==> rows[i] == rows[1..][i - 1];
      if |rows[0]| <= m then |rows[0]| else m
  }

  /** Each line's fields, in order: `[line.strip().split('\t') for line in lines]`. */
  function Rows(lines: seq<string>): (rows: seq<seq<string>>)
    ensures |rows| == |lines|
  {
    if |lines| == 0 then [] else [ParseLine(lines[0])] + Rows(lines[1..])
  }

  lemma {:induction false} RowsAt(lines: seq<string>, i: nat)
    requires i < |lines|
    ensures Rows(lines)[i] == ParseLine(lines[i])
  {
    if i > 0 {
      RowsAt(lines[1..], i - 1);
    }
  }

  lemma {:induction false} RowsAppend(a: seq<string>, b: seq<string>)
    ensures Rows(a + b) == Rows(a) + Rows(b)
  {
    if |a| > 0 {
      assert (a + b)[1..] == a[1..] + b;
      RowsAppend(a[1..], b);
    } else {
      assert a + b == b;
    }
  }

  /** Every row has at least three fields. */
  predicate Wide(rows: seq<seq<string>>) {
    forall i :: 0 <= i < |rows| ==> |rows[i]| >= 3
  }

  /** The first three fields of every row. */
  function Take3(rows: seq<seq<string>>): (recs: seq<VideoRecord>)
    requires Wide(rows)
    ensures |recs| == |rows|
  {
    if |rows| == 0 then []
    else [VideoRecord(rows[0][0], rows[0][1], rows[0][2])] + Take3(rows[1..])
  }

  lemma {:induction false} Take3At(rows: seq<seq<string>>, i: nat)
    requires Wide(rows)
    requires i < |rows|
    ensures Take3(rows)[i] == VideoRecord(rows[i][0], rows[i][1], rows[i][2])
  {
    if i > 0 {
      Take3At(rows[1..], i - 1);
    }
  }

  /** True when `zip(*rows)` yields exactly three tuples (or `rows` is empty, which the
      loader never unzips). */
  predicate UnpacksToThree(rows: seq<seq<string>>) {
    |rows| == 0
    || (Wide(rows)
        && exists i :: 0 <= i < |rows| && |rows[i]| == 3)
  }

  /** `urls, titles, pubdates = zip(*rows)`: succeeds when there are no rows, or when the
      shortest row has exactly three fields; each row then contributes its first three. */
  function Unzip3(rows: seq<seq<string>>): (r: Result<seq<VideoRecord>, LoadError>)
    ensures r.Ok? <==> UnpacksToThree(rows)
    ensures r.Ok? ==> |r.value| == |rows|
    ensures r.Ok? ==> forall i :: 0 <= i < |rows| ==> r.value[i] == VideoRecord(rows[i][0], rows[i][1], rows[i][2])
  {
    if |rows| == 0 then Ok([])
    else if MinLen(rows) != 3 then Err(UnpackMismatch(MinLen(rows)))
    else
      assert forall i :: 0 <= i < |rows| ==> Take3(rows)[i] == VideoRecord(rows[i][0], rows[i][1], rows[i][2]) by {
        forall i | 0 <= i < |rows| {
          Take3At(rows, i);
        }
      }
      Ok(Take3(rows))
  }

  /** Reading the whole file into records (ytchan_dl.py:116-121). */
  function Load(lines: seq<string>): (r: Result<seq<VideoRecord>, LoadError>) {
    Unzip3(Rows(lines))
  }

  /** Rows of exactly three given values unzip into records of those values. */
  lemma Unzip3Fields(rows: seq<seq<string>>, recs: seq<VideoRecord>)
    requires |rows| == |recs|
    requires forall i :: 0 <= i < |recs| ==> rows[i] == [recs[i].url, recs[i].title, recs[i].pubdate]
    ensures Unzip3(rows) == Ok(recs)
  {
    if |recs| > 0 {
      assert |rows[0]| == 3;
      assert Wide(rows);
      assert Unzip3(rows).Ok?;
      var loaded := Unzip3(rows).value;
      assert forall i :: 0 <= i < |recs| ==> loaded[i] == recs[i];
      assert loaded == recs;
    }
  }

  /** The lines written for storable records load back as exactly those records. */
  lemma LoadWritten(recs: seq<VideoRecord>)
    requires forall i :: 0 <= i < |recs| ==> Storable(recs[i])
    ensures Load(Lines(recs)) == Ok(recs)
  {
    var lines := Lines(recs);
    forall i | 0 <= i < |recs|
      ensures Rows(lines)[i] == [recs[i].url, recs[i].title, recs[i].pubdate]
    {
      LineRoundTrip(recs[i]);
      RowsAt(lines, i);
    }
    Unzip3Fields(Rows(lines), recs);
  }

  /** Unzipping concatenated rows unzips each part. */
  lemma WideAppend(ra: seq<seq<string>>, rb: seq<seq<string>>)
    requires Wide(ra) && Wide(rb)
    ensures Wide(ra + rb)
  {
    assert forall i :: 0 <= i < |ra + rb| ==> (ra + rb)[i] == if i < |ra| then ra[i] else rb[i - |ra|];
  }

  lemma {:induction false} Take3Append(ra: seq<seq<string>>, rb: seq<seq<string>>)
    requires Wide(ra) && Wide(rb)
    ensures Wide(ra + rb)
    ensures Take3(ra + rb) == Take3(ra) + Take3(rb)
    decreases |ra|
  {
    WideAppend(ra, rb);
    if |ra| == 0 {
      assert ra + rb == rb;
    } else {
      var tail := ra[1..] + rb;
      Take3Append(ra[1..], rb);
      assert (ra + rb)[0] == ra[0] && (ra + rb)[1..] == tail;
      var head := [VideoRecord(ra[0][0], ra[0][1], ra[0][2])];
      assert Take3(ra + rb) == head + Take3(tail);
      assert Take3(ra) == head + Take3(ra[1..]);
      assert head + (Take3(ra[1..]) + Take3(rb)) == head + Take3(ra[1..]) + Take3(rb);
    }
  }

  lemma Unzip3Append(ra: seq<seq<string>>, rb: seq<seq<string>>)
    requires Unzip3(ra).Ok? && Unzip3(rb).Ok?
    ensures Unzip3(ra + rb) == Ok(Unzip3(ra).value + Unzip3(rb).value)
  {
    if |ra| == 0 {
      assert ra + rb == rb;
      assert Unzip3(ra) == Ok([]);
      assert Unzip3(ra).value + Unzip3(rb).value == Unzip3(rb).value;
    } else if |rb| == 0 {
      assert ra + rb == ra;
      assert Unzip3(rb) == Ok([]);
      assert Unzip3(ra).value + Unzip3(rb).value == Unzip3(ra).value;
    } else {
      Take3Append(ra, rb);
      var i :| 0 <= i < |ra| && |ra[i]| == 3;
      assert (ra + rb)[i] == ra[i];
      assert MinLen(ra + rb) == 3 by {
        var m := MinLen(ra + rb);
        assert m <= |(ra + rb)[i]|;
      }
      assert Unzip3(ra) == Ok(Take3(ra)) && Unzip3(rb) == Ok(Take3(rb));
    }
  }

  /** Loading a file that grew by appending loads the old records followed by the new ones. */
  lemma LoadAppend(before: seq<string>, after: seq<string>)
    requires Load(before).Ok? && Load(after).Ok?
    ensures Load(before + after) == Ok(Load(before).value + Load(after).value)
  {
    RowsAppend(before, after);
    Unzip3Append(Rows(before), Rows(after));
  }

  /** The line of a record whose title holds a tab has four fields. On its own it makes the
      load fail; next to a well-formed line, `zip` cuts it to three columns, so the title's
      second half becomes the publish date and the real date is dropped. */
  lemma TabInTitleShiftsColumns(good: VideoRecord, url: string, head: string, tail: string, pubdate: string)
    requires Storable(good) && Storable(VideoRecord(url, head, pubdate)) && FreeOf(tail, Breaks)
    ensures var line := Serialize(VideoRecord(url, head + [Tab] + tail, pubdate));
      && Load([line]).Err?
      && Load([Serialize(good), line]) == Ok([good, VideoRecord(url, head, tail)])
  {
    var line := Serialize(VideoRecord(url, head + [Tab] + tail, pubdate));
    JoinCons(tail, [pubdate], Tab);
    JoinCons(head, [tail, pubdate], Tab);
    JoinCons(url, [head, tail, pubdate], Tab);
    assert line == Join([url, head, tail, pubdate], Tab) + "\n";
    ParseJoinedLine([url, head, tail, pubdate]);
    RowsAt([line], 0);
    LineRoundTrip(good);
    var lines := [Serialize(good), line];
    RowsAt(lines, 0);
    RowsAt(lines, 1);
    var rows := Rows(lines);
    assert |rows[0]| == 3 && |rows[1]| == 4;
    assert Unzip3(rows).Ok?;
    assert Unzip3(rows).value == [good, VideoRecord(url, head, tail)];
  }

  /** A line with fewer than three fields makes the whole load fail, whatever the other
      lines hold. */
  lemma ShortLineFailsLoad(lines: seq<string>, k: nat)
    requires k < |lines| && |ParseLine(lines[k])| < 3
    ensures Load(lines).Err?
  {
    RowsAt(lines, k);
  }
}

=== FILE: listing.dfy ===
/** One listing page walked record by record (`extract_and_append_links`,
    ytchan_dl.py:189-211): every record whose URL is new is appended to the three lists and
    written to the output file; the first URL that is already known stops the walk. */
module Listing {
  import opened Results
  import opened Records
  import opened LineFormat
  import Channels
  import Text

  /** The three class-level lists of ytchan_dl.py:88-90 and the lines this run has
      appended to the output file. */
  datatype State = State(urls: seq<string>, titles: seq<string>, pubdates: seq<string>, written: seq<string>)

  /** The first `.yt-uix-sessionlink` of an entry: its `href` and `title` attributes, each
      absent when the element does not carry it (`get` returns `None`). */
  datatype SessionLink = SessionLink(href: Option<string>, title: Option<string>)

  /** One `.yt-lockup-content` element as the selectors see it: the session link if there
      is one, and the `li` texts of the meta-info list if there is one. */
  datatype Entry = Entry(link: Option<SessionLink>, metaItems: Option<seq<string>>)

  /** The exception extracting one entry raises: `IndexError` for a missing element,
      `TypeError` for a link without `href` (`YOUTUBE + None`), `ValueError` when the meta
      list does not unpack into views and date. */
  datatype EntryError = MissingSessionLink | MissingHref | MissingMetaInfo | MetaItemCount(count: nat)

  /** The text an f-string gives a title attribute: the attribute, or "None" without one. */
  function TitleText(title: Option<string>): (r: string) {
    match title
    case Some(t) => t
    case None => "None"
  }

  /** How the walk over a page ended: every entry appended, stopped at a known URL, or an
      entry that could not be extracted. */
  datatype PageEnd = Exhausted | Stopped | Malformed(error: EntryError)

  /** The page step's result: the state afterwards, the records appended in page order (the
      source's `n` is their number) and how the walk ended (`stop_scraping` is `Stopped`). */
  datatype PageResult = PageResult(state: State, appended: seq<VideoRecord>, end: PageEnd)

  /** ytchan_dl.py:196-198: the absolute URL, the title and the second meta item. A
      missing title is not an error: it is recorded, and written, as the text "None". */
  function ExtractRecord(e: Entry): (r: Result<VideoRecord, EntryError>)
    ensures r.Ok? <==> && e.link.Some? && e.link.value.href.Some?
                       && e.metaItems.Some? && |e.metaItems.value| == 2
    ensures r.Ok? ==> r.value == VideoRecord(Channels.Youtube + e.link.value.href.value,
                                            TitleText(e.link.value.title), e.metaItems.value[1])
    ensures r == Err(MissingHref) <==> e.link.Some? && e.link.value.href.None?
  {
    match e.link
    case None => Err(MissingSessionLink)
    case Some(link) =>
      match link.href
      case None => Err(MissingHref)
      case Some(href) =>
        match e.metaItems
        case None => Err(MissingMetaInfo)
        case Some(items) =>
          if |items| != 2 then Err(MetaItemCount(|items|))
          else Ok(VideoRecord(Channels.Youtube + href, TitleText(link.title), items[1]))
  }

  /** The lists grown by `recs`, with their lines written to the file. */
  function Appended(st: State, recs: seq<VideoRecord>): (r: State) {
    State(st.urls + Urls(recs), st.titles + Titles(recs), st.pubdates + Pubdates(recs),
          st.written + Lines(recs))
  }

  /** The first `|recs|` entries of the page extract to `recs`. */
  predicate Extracts(entries: seq<Entry>, recs: seq<VideoRecord>) {
    && |recs| <= |entries|
    && forall i :: 0 <= i < |recs| ==> ExtractRecord(entries[i]) == Ok(recs[i])
  }

  /** Why a walk that appended `appended` ended as it did. */
  predicate EndExplained(known: seq<string>, entries: seq<Entry>, appended: seq<VideoRecord>, end: PageEnd)
    requires |appended| <= |entries|
  {
    && (end == Exhausted <==> |appended| == |entries|)
    && (end == Stopped ==>
          && |appended| < |entries|
          && ExtractRecord(entries[|appended|]).Ok?
          && ExtractRecord(entries[|appended|]).value.url in known + Urls(appended))
    && (end.Malformed? ==>
          && |appended| < |entries|
          && ExtractRecord(entries[|appended|]) == Err(end.error))
  }

  /** The specification of one page step, independent of how it is computed: `appended`
      is the longest prefix of the page whose entries extract to records with URLs not known
      before them, and `end` says why it is not longer. */
  predicate LongestFreshPrefix(known: seq<string>, entries: seq<Entry>,
                               appended: seq<VideoRecord>, end: PageEnd)
  {
    && Extracts(entries, appended)
    && Fresh(known, appended)
    && EndExplained(known, entries, appended, end)
  }

  /** `extract_and_append_links`: walk the page in order, appending and writing each new
      record, stopping at the first known URL (including one appended earlier on the same
      page) or at the first entry that cannot be extracted. */
  function ExtractAndAppendLinks(st: State, entries: seq<Entry>): (r: PageResult)
    ensures r.state == Appended(st, r.appended)
    decreases |entries|
  {
    if |entries| == 0 then PageResult(st, [], Exhausted)
    else
      match ExtractRecord(entries[0])
      case Err(e) => PageResult(st, [], Malformed(e))
      case Ok(rec) =>
        if rec.url in st.urls then PageResult(st, [], Stopped)
        else
          var next := Appended(st, [rec]);
          var rest := ExtractAndAppendLinks(next, entries[1..]);
          AppendedConcat(st, [rec], rest.appended);
          PageResult(rest.state, [rec] + rest.appended, rest.end)
  }

  /** The walk meets its specification: it appends the longest fresh prefix of the page,
      and keeps the URL list free of duplicates. */
  lemma {:induction false} WalkMeetsSpec(st: State, entries: seq<Entry>)
    ensures var r := ExtractAndAppendLinks(st, entries);
      && LongestFreshPrefix(st.urls, entries, r.appended, r.end)
      && (NoDup(st.urls) ==> NoDup(r.state.urls))
    decreases |entries|
  {
    var r := ExtractAndAppendLinks(st, entries);
    if |entries| > 0 && ExtractRecord(entries[0]).Ok? && ExtractRecord(entries[0]).value.url !in st.urls {
      var rec := ExtractRecord(entries[0]).value;
      var next := Appended(st, [rec]);
      assert next.urls == st.urls + [rec.url];
      var rest := ExtractAndAppendLinks(next, entries[1..]);
      WalkMeetsSpec(next, entries[1..]);
      StepConcat(st.urls, rec, rest.appended, rest.end, entries);
    }
    if NoDup(st.urls) {
      FreshKeepsNoDup(st.urls, r.appended);
    }
  }

  /** Growing the lists batch by batch is growing them by the concatenated batch. */
  lemma AppendedConcat(st: State, a: seq<VideoRecord>, b: seq<VideoRecord>)
    ensures Appended(Appended(st, a), b) == Appended(st, a + b)
  {
    ColumnsConcat(a, b);
    LinesConcat(a, b);
    Text.AppendAssoc(st.urls, Urls(a), Urls(b));
    Text.AppendAssoc(st.titles, Titles(a), Titles(b));
    Text.AppendAssoc(st.pubdates, Pubdates(a), Pubdates(b));
    Text.AppendAssoc(st.written, Lines(a), Lines(b));
  }

  /** A page whose first entry is a video already listed appends nothing and stops; one
      whose first entry is a new video appends it first. */
  lemma FirstEntryDecides(st: State, entries: seq<Entry>)
    requires |entries| > 0 && ExtractRecord(entries[0]).Ok?
    ensures var rec := ExtractRecord(entries[0]).value;
      var r := ExtractAndAppendLinks(st, entries);
      && (rec.url in st.urls ==> r == PageResult(st, [], Stopped))
      && (rec.url !in st.urls ==> |r.appended| > 0 && r.appended[0] == rec)
  {
  }

  /** Two fresh batches in a row are one fresh batch. */
  lemma FreshChain(st: State, a: seq<VideoRecord>, b: seq<VideoRecord>)
    requires Fresh(st.urls, a) && Fresh(Appended(st, a).urls, b)
    ensures Appended(Appended(st, a), b) == Appended(st, a + b) && Fresh(st.urls, a + b)
  {
    AppendedConcat(st, a, b);
    FreshConcat(st.urls, a, b);
  }

  lemma ExtractsCons(entries: seq<Entry>, rec: VideoRecord, tail: seq<VideoRecord>)
    requires |entries| > 0 && ExtractRecord(entries[0]) == Ok(rec) && Extracts(entries[1..], tail)
    ensures Extracts(entries, [rec] + tail)
  {
    var app := [rec] + tail;
    forall i | 0 <= i < |app|
      ensures ExtractRecord(entries[i]) == Ok(app[i])
    {
      if i > 0 {
        assert app[i] == tail[i - 1] && entries[i] == entries[1..][i - 1];
      }
    }
  }

  lemma EndExplainedCons(known: seq<string>, entries: seq<Entry>, rec: VideoRecord,
                         tail: seq<VideoRecord>, end: PageEnd)
    requires |entries| > 0 && |tail| <= |entries| - 1
    requires EndExplained(known + [rec.url], entries[1..], tail, end)
    ensures EndExplained(known, entries, [rec] + tail, end)
  {
    var app := [rec] + tail;
    assert Urls(app) == [rec.url] + Urls(tail);
    assert known + [rec.url] + Urls(tail) == known + Urls(app);
    if |app| < |entries| {
      assert entries[|app|] == entries[1..][|tail|];
    }
  }

  /** The inductive step of `ExtractAndAppendLinks`: a fresh first record followed by the
      longest fresh prefix of the rest is the longest fresh prefix of the page. */
  lemma StepConcat(known: seq<string>, rec: VideoRecord, tail: seq<VideoRecord>, end: PageEnd, entries: seq<Entry>)
    requires |entries| > 0 && ExtractRecord(entries[0]) == Ok(rec) && rec.url !in known
    requires LongestFreshPrefix(known + [rec.url], entries[1..], tail, end)
    ensures LongestFreshPrefix(known, entries, [rec] + tail, end)
  {
    ExtractsCons(entries, rec, tail);
    assert Urls([rec]) == [rec.url];
    assert Fresh(known, [rec]);
    FreshConcat(known, [rec], tail);
    EndExplainedCons(known, entries, rec, tail, end);
  }

  /** The specification admits one outcome only. */
  lemma PrefixUnique(known: seq<string>, entries: seq<Entry>,
                     a1: seq<VideoRecord>, e1: PageEnd, a2: seq<VideoRecord>, e2: PageEnd)
    requires LongestFreshPrefix(known, entries, a1, e1)
    requires LongestFreshPrefix(known, entries, a2, e2)
    ensures a1 == a2 && e1 == e2
  {
    if |a1| < |a2| {
      ShorterIsPrefix(known, entries, a1, e1, a2);
    } else if |a2| < |a1| {
      ShorterIsPrefix(known, entries, a2, e2, a1);
    }
    assert a1 == a2;
  }

  /** A fresh prefix cannot be cut short by a record that a longer fresh prefix accepts. */
  lemma ShorterIsPrefix(known: seq<string>, entries: seq<Entry>,
                        a1: seq<VideoRecord>, e1: PageEnd, a2: seq<VideoRecord>)
    requires LongestFreshPrefix(known, entries, a1, e1)
    requires Extracts(entries, a2) && Fresh(known, a2)
    ensures |a2| <= |a1|
  {
  }

  /** The specification and the code agree: a page outcome meets the specification exactly
      when it is what `ExtractAndAppendLinks` returns. */
  lemma PageStepCharacterised(st: State, entries: seq<Entry>, appended: seq<VideoRecord>, end: PageEnd)
    ensures LongestFreshPrefix(st.urls, entries, appended, end)
        <==> (var r := ExtractAndAppendLinks(st, entries); appended == r.appended && end == r.end)
  {
    var r := ExtractAndAppendLinks(st, entries);
    WalkMeetsSpec(st, entries);
    if LongestFreshPrefix(st.urls, entries, appended, end) {
      PrefixUnique(st.urls, entries, appended, end, r.appended, r.end);
    }
  }

  /** On a page where every entry is well formed, the walk is cut short exactly when the
      page's URLs are not all fresh; otherwise it appends the whole page. */
  lemma WellFormedPageStops(st: State, entries: seq<Entry>, recs: seq<VideoRecord>)
    requires |recs| == |entries| && Extracts(entries, recs)
    ensures var r := ExtractAndAppendLinks(st, entries);
      && !r.end.Malformed?
      && (r.end == Stopped <==> !Fresh(st.urls, recs))
      && (r.end == Exhausted ==> r.appended == recs)
  {
    var r := ExtractAndAppendLinks(st, entries);
    WalkMeetsSpec(st, entries);
    if Fresh(st.urls, recs) {
      PrefixUnique(st.urls, entries, recs, Exhausted, r.appended, r.end);
    }
    if r.end == Exhausted {
      assert r.appended == recs;
    }
  }

  /** Walking two pages one after the other, the second only if the first was appended in
      full, is walking their concatenation. */
  lemma {:induction false} WalkConcat(st: State, a: seq<Entry>, b: seq<Entry>)
    ensures ExtractAndAppendLinks(st, a + b)
         == (var w := ExtractAndAppendLinks(st, a);
             if w.end == Exhausted then
               var v := ExtractAndAppendLinks(w.state, b);
               PageResult(v.state, w.appended + v.appended, v.end)
             else w)
    decreases |a|
  {
    if |a| == 0 {
      assert a + b == b;
    } else {
      assert (a + b)[0] == a[0];
      assert (a + b)[1..] == a[1..] + b;
      match ExtractRecord(a[0])
      case Err(_) =>
      case Ok(rec) =>
        if rec.url !in st.urls {
          var next := Appended(st, [rec]);
          WalkConcat(next, a[1..], b);
          var w := ExtractAndAppendLinks(next, a[1..]);
          if w.end == Exhausted {
            var v := ExtractAndAppendLinks(w.state, b);
            assert [rec] + (w.appended + v.appended) == ([rec] + w.appended) + v.appended;
          }
        }
    }
  }
}

=== FILE: pagination.dfy ===
/** One pass over a channel's uploads listing (`fetch_and_scroll`, ytchan_dl.py:152-187):
    the first page is fetched with a GET, then the "load more" continuations are POSTed
    one after another until a page stops the walk or the last continuation has no widget.
    The site is abstracted into its answers: the parsed first page and the parsed JSON
    payloads answering the POSTs, in order. */
module Pagination {
  import opened Results
  import opened Records
  import opened Listing
  import Channels

  /** The first page as the selectors see it: its lockup entries and, for each
      `button.yt-uix-button`, its `data-uix-load-more-href` attribute if present. */
  datatype Page = Page(entries: seq<Entry>, buttons: seq<Option<string>>)

  /** `load_more_widget_html` of a continuation: empty, or markup whose buttons carry the
      given `data-uix-load-more-href` attributes. */
  datatype Widget = NoWidget | WidgetButtons(hrefs: seq<Option<string>>)

  /** One continuation payload: the entries of `content_html` and the widget. */
  datatype Payload = Payload(content: seq<Entry>, widget: Widget)

  datatype Request = Get(url: string) | Post(url: string)

  /** Why a pass raised: an entry that does not extract; no truthy load-more attribute on
      the first page (`IndexError`, line 165); a widget without buttons (`IndexError`) or
      whose first button has no attribute (`TypeError`, line 185); a continuation that the
      site never answered. */
  datatype PassError = BadEntry(error: EntryError) | NoLoadMoreLink | NoWidgetButton | NoWidgetHref | NoResponse

  /** `Finished` is the pass returning `True`; `Halted` is returning `None` because a
      known URL stopped the walk. */
  datatype PassEnd = Finished | Halted | Failed(error: PassError)

  /** The pass's outcome: the state afterwards, the records appended (the progress bar
      advances by their number), the requests made in order, and how many continuation
      payloads were consumed. */
  datatype PassResult = PassResult(state: State, appended: seq<VideoRecord>, requests: seq<Request>,
                                   consumed: nat, end: PassEnd)

  /** The first truthy load-more attribute: `filter(None, ...)` drops absent and empty
      attributes, and `[0]` takes the first survivor. */
  function FirstLoadMore(buttons: seq<Option<string>>): (r: Option<string>)
    ensures r.Some? ==> r.value != [] && (exists i :: 0 <= i < |buttons| && buttons[i] == r
                                           && forall j :: 0 <= j < i ==> buttons[j] == None || buttons[j] == Some([]))
    ensures r.None? ==> forall j :: 0 <= j < |buttons| ==> buttons[j] == None || buttons[j] == Some([])
  {
    if |buttons| == 0 then None
    else if buttons[0].Some? && buttons[0].value != [] then
      assert buttons[0] == Some(buttons[0].value);
      buttons[0]
    else
      var r := FirstLoadMore(buttons[1..]);
      if r.Some? then
        var i :| 0 <= i < |buttons[1..]| && buttons[1..][i] == r
                 && forall j :: 0 <= j < i ==> buttons[1..][j] == None || buttons[1..][j] == Some([]);
        assert buttons[i + 1] == r;
        r
      else r
  }

  /** The continuation link a widget names, if it names one. */
  function NextLink(w: Widget): (r: Result<string, PassError>)
    requires w.WidgetButtons?
    ensures r.Ok? <==> |w.hrefs| > 0 && w.hrefs[0].Some?
    ensures r.Ok? ==> r.value == Channels.Youtube + w.hrefs[0].value
  {
    if |w.hrefs| == 0 then Err(NoWidgetButton)
    else match w.hrefs[0]
      case None => Err(NoWidgetHref)
      case Some(h) => Ok(Channels.Youtube + h)
  }

  /** Every entry the consumed continuations held, in order. */
  function Seen(payloads: seq<Payload>): (r: seq<Entry>) {
    if |payloads| == 0 then [] else payloads[0].content + Seen(payloads[1..])
  }

  /** How the reference walk's end corresponds to the pass's end. */
  predicate EndAgrees(walk: PageEnd, pass: PassEnd) {
    match walk
    case Stopped => pass == Halted
    case Malformed(e) => pass == Failed(BadEntry(e))
    case Exhausted => pass == Finished || (pass.Failed? && !pass.error.BadEntry?)
  }

  /** The continuation loop, starting with the POST of `link`. */
  function Scroll(st: State, link: string, payloads: seq<Payload>): (r: PassResult)
    ensures r.consumed <= |payloads|
    ensures r.state == Appended(st, r.appended) && Fresh(st.urls, r.appended)
    ensures r.end == Finished ==> 0 < r.consumed && payloads[r.consumed - 1].widget == NoWidget
    ensures r.end == Failed(NoResponse) ==> r.consumed == |payloads|
    ensures r.end != Failed(NoLoadMoreLink)
    decreases |payloads|
  {
    if |payloads| == 0 then PassResult(st, [], [Post(link)], 0, Failed(NoResponse))
    else
      var p := payloads[0];
      var page := ExtractAndAppendLinks(st, p.content);
      WalkMeetsSpec(st, p.content);
      match page.end
      case Malformed(e) => PassResult(page.state, page.appended, [Post(link)], 1, Failed(BadEntry(e)))
      case Stopped => PassResult(page.state, page.appended, [Post(link)], 1, Halted)
      case Exhausted =>
        match p.widget
        case NoWidget => PassResult(page.state, page.appended, [Post(link)], 1, Finished)
        case WidgetButtons(_) =>
          match NextLink(p.widget)
          case Err(e) => PassResult(page.state, page.appended, [Post(link)], 1, Failed(e))
          case Ok(next) =>
            var rest := Scroll(page.state, next, payloads[1..]);
            FreshChain(st, page.appended, rest.appended);
            PassResult(rest.state, page.appended + rest.appended, [Post(link)] + rest.requests,
                       rest.consumed + 1, rest.end)
  }

  /** The continuation loop appends what one walk over all the entries of the payloads it
      consumed would append, and ends accordingly. */
  lemma {:induction false} ScrollAgrees(st: State, link: string, payloads: seq<Payload>)
    ensures var r := Scroll(st, link, payloads);
      var w := ExtractAndAppendLinks(st, Seen(payloads[..r.consumed]));
      r.state == w.state && r.appended == w.appended && EndAgrees(w.end, r.end)
    decreases |payloads|
  {
    if |payloads| > 0 {
      var p := payloads[0];
      var page := ExtractAndAppendLinks(st, p.content);
      SeenOne(payloads);
      if page.end == Exhausted && p.widget.WidgetButtons? && NextLink(p.widget).Ok? {
        var next := NextLink(p.widget).value;
        var rest := Scroll(page.state, next, payloads[1..]);
        ScrollAgrees(page.state, next, payloads[1..]);
        ScrollStep(st, payloads, rest.consumed);
      }
    } else {
      assert payloads[..0] == [];
    }
  }

  /** The POSTs of a continuation loop: the first goes to `link`, each later one to the link
      named by the widget of the payload answering the one before. */
  predicate PostChain(link: string, payloads: seq<Payload>, requests: seq<Request>) {
    && |requests| > 0 && requests[0] == Post(link)
    && |requests| <= |payloads| + 1
    && forall i :: 0 < i < |requests| ==>
         && requests[i].Post?
         && payloads[i - 1].widget.WidgetButtons?
         && NextLink(payloads[i - 1].widget) == Ok(requests[i].url)
  }

  /** The loop POSTs exactly the chain of continuation links, one per consumed payload,
      plus the one left unanswered when the payloads run out. */
  lemma {:induction false} ScrollRequests(st: State, link: string, payloads: seq<Payload>)
    ensures var r := Scroll(st, link, payloads);
      && PostChain(link, payloads, r.requests)
      && |r.requests| == (if r.end == Failed(NoResponse) then r.consumed + 1 else r.consumed)
    decreases |payloads|
  {
    var r := Scroll(st, link, payloads);
    if |payloads| > 0 {
      var p := payloads[0];
      var page := ExtractAndAppendLinks(st, p.content);
      if page.end == Exhausted && p.widget.WidgetButtons? && NextLink(p.widget).Ok? {
        var next := NextLink(p.widget).value;
        ScrollRequests(page.state, next, payloads[1..]);
        var rest := Scroll(page.state, next, payloads[1..]);
        assert r.requests == [Post(link)] + rest.requests;
        forall i | 0 < i < |r.requests|
          ensures r.requests[i].Post? && payloads[i - 1].widget.WidgetButtons?
                  && NextLink(payloads[i - 1].widget) == Ok(r.requests[i].url)
        {
          if i > 1 {
            assert r.requests[i] == rest.requests[i - 1];
            assert payloads[i - 1] == payloads[1..][i - 2];
          }
        }
      }
    }
  }

  lemma SeenOne(payloads: seq<Payload>)
    requires |payloads| > 0
    ensures Seen(payloads[..1]) == payloads[0].content
  {
    assert payloads[..1][1..] == [];
  }

  /** The entries seen after consuming the first payload and `k` more. */
  lemma SeenCons(payloads: seq<Payload>, k: nat)
    requires k < |payloads|
    ensures Seen(payloads[..k + 1]) == payloads[0].content + Seen(payloads[1..][..k])
  {
    assert payloads[..k + 1][1..] == payloads[1..][..k];
  }

  lemma ScrollStep(st: State, payloads: seq<Payload>, k: nat)
    requires k < |payloads|
    requires ExtractAndAppendLinks(st, payloads[0].content).end == Exhausted
    ensures var w := ExtractAndAppendLinks(st, payloads[0].content);
      ExtractAndAppendLinks(st, Seen(payloads[..k + 1]))
        == (var v := ExtractAndAppendLinks(w.state, Seen(payloads[1..][..k]));
            PageResult(v.state, w.appended + v.appended, v.end))
  {
    SeenCons(payloads, k);
    WalkConcat(st, payloads[0].content, Seen(payloads[1..][..k]));
  }

  /** `fetch_and_scroll`: the GET of the listing, the walk over its first page, then the
      continuation loop from the first truthy load-more link. */
  function FetchAndScroll(st: State, url: string, first: Page, payloads: seq<Payload>): (r: PassResult)
    ensures r.consumed <= |payloads|
    ensures r.state == Appended(st, r.appended) && Fresh(st.urls, r.appended)
    ensures r.end == Finished ==> 0 < r.consumed && payloads[r.consumed - 1].widget == NoWidget
    ensures r.end == Failed(NoLoadMoreLink) <==>
              ExtractAndAppendLinks(st, first.entries).end == Exhausted && FirstLoadMore(first.buttons).None?
  {
    var page := ExtractAndAppendLinks(st, first.entries);
    WalkMeetsSpec(st, first.entries);
    match page.end
    case Malformed(e) => PassResult(page.state, page.appended, [Get(url)], 0, Failed(BadEntry(e)))
    case Stopped => PassResult(page.state, page.appended, [Get(url)], 0, Halted)
    case Exhausted =>
      match FirstLoadMore(first.buttons)
      case None => PassResult(page.state, page.appended, [Get(url)], 0, Failed(NoLoadMoreLink))
      case Some(h) =>
        var rest := Scroll(page.state, Channels.Youtube + h, payloads);
        FreshChain(st, page.appended, rest.appended);
        PassResult(rest.state, page.appended + rest.appended, [Get(url)] + rest.requests,
                   rest.consumed, rest.end)
  }

  /** A pass appends what one walk over the first page and the entries of every payload it
      consumed would append, and ends accordingly. */
  lemma FetchAgrees(st: State, url: string, first: Page, payloads: seq<Payload>)
    ensures var r := FetchAndScroll(st, url, first, payloads);
      var w := ExtractAndAppendLinks(st, first.entries + Seen(payloads[..r.consumed]));
      r.state == w.state && r.appended == w.appended && EndAgrees(w.end, r.end)
  {
    var r := FetchAndScroll(st, url, first, payloads);
    var page := ExtractAndAppendLinks(st, first.entries);
    if page.end == Exhausted && FirstLoadMore(first.buttons).Some? {
      var link := Channels.Youtube + FirstLoadMore(first.buttons).value;
      ScrollAgrees(page.state, link, payloads);
      WalkConcat(st, first.entries, Seen(payloads[..r.consumed]));
    } else {
      assert payloads[..0] == [];
      assert first.entries + Seen(payloads[..0]) == first.entries;
    }
  }

  /** A pass keeps what its first page appended, and a first page that meets a known
      video ends the pass with the one GET. */
  lemma FetchKeepsFirstPage(st: State, url: string, first: Page, payloads: seq<Payload>)
    ensures var page := ExtractAndAppendLinks(st, first.entries);
      var r := FetchAndScroll(st, url, first, payloads);
      && |r.appended| >= |page.appended| && r.appended[..|page.appended|] == page.appended
      && (page.end == Stopped ==> r == PassResult(page.state, page.appended, [Get(url)], 0, Halted))
  {
    var page := ExtractAndAppendLinks(st, first.entries);
    var r := FetchAndScroll(st, url, first, payloads);
    if page.end == Exhausted && FirstLoadMore(first.buttons).Some? {
      var rest := Scroll(page.state, Channels.Youtube + FirstLoadMore(first.buttons).value, payloads);
      assert r.appended == page.appended + rest.appended;
      assert (page.appended + rest.appended)[..|page.appended|] == page.appended;
    }
  }

  /** A pass GETs the listing and then, if the first page was appended in full and names a
      continuation, POSTs the chain of continuation links starting from it. */
  lemma FetchRequests(st: State, url: string, first: Page, payloads: seq<Payload>)
    ensures var r := FetchAndScroll(st, url, first, payloads);
      && |r.requests| > 0 && r.requests[0] == Get(url)
      && (|r.requests| > 1 <==> ExtractAndAppendLinks(st, first.entries).end == Exhausted
                                 && FirstLoadMore(first.buttons).Some?)
      && (|r.requests| > 1 ==> PostChain(Channels.Youtube + FirstLoadMore(first.buttons).value,
                                         payloads, r.requests[1..]))
  {
    var r := FetchAndScroll(st, url, first, payloads);
    var page := ExtractAndAppendLinks(st, first.entries);
    if page.end == Exhausted && FirstLoadMore(first.buttons).Some? {
      var link := Channels.Youtube + FirstLoadMore(first.buttons).value;
      ScrollRequests(page.state, link, payloads);
      assert r.requests[1..] == Scroll(page.state, link, payloads).requests;
    }
  }
}

=== FILE: records.dfy ===
/** Video records and the uniqueness vocabulary used by the store, the page step and the
    passes. */
module Records {

  /** One listed upload: absolute URL, title and the publish-date display text. */
  datatype VideoRecord = VideoRecord(url: string, title: string, pubdate: string)

  function Urls(recs: seq<VideoRecord>): (r: seq<string>)
    ensures |r| == |recs| && forall i :: 0 <= i < |recs| ==> r[i] == recs[i].url
  {
    seq(|recs|, i requires 0 <= i < |recs| => recs[i].url)
  }

  function Titles(recs: seq<VideoRecord>): (r: seq<string>)
    ensures |r| == |recs| && forall i :: 0 <= i < |recs| ==> r[i] == recs[i].title
  {
    seq(|recs|, i requires 0 <= i < |recs| => recs[i].title)
  }

  function Pubdates(recs: seq<VideoRecord>): (r: seq<string>)
    ensures |r| == |recs| && forall i :: 0 <= i < |recs| ==> r[i] == recs[i].pubdate
  {
    seq(|recs|, i requires 0 <= i < |recs| => recs[i].pubdate)
  }

  /** No element occurs twice. */
  predicate NoDup<T(==)>(s: seq<T>) {
    forall i, j :: 0 <= i < j < |s| ==> s[i] != s[j]
  }

  /** Records that may be appended after `known`: none of their URLs is known already and
      no two of them share a URL. */
  predicate Fresh(known: seq<string>, recs: seq<VideoRecord>) {
    && (forall i :: 0 <= i < |recs| ==> recs[i].url !in known)
    && (forall i, j :: 0 <= i < j < |recs| ==> recs[i].url != recs[j].url)
  }

  /** Appending fresh records keeps a duplicate-free URL list duplicate-free. */
  lemma FreshKeepsNoDup(known: seq<string>, recs: seq<VideoRecord>)
    requires NoDup(known) && Fresh(known, recs)
    ensures NoDup(known + Urls(recs))
  {
    var all := known + Urls(recs);
    forall i, j | 0 <= i < j < |all|
      ensures all[i] != all[j]
    {
      if j >= |known| {
        assert all[j] == recs[j - |known|].url;
        if i < |known| {
          assert all[i] in known;
        }
      }
    }
  }

  /** Fresh batches compose: what is fresh after `known + a` and `a` itself is fresh
      together. */
  lemma FreshConcat(known: seq<string>, a: seq<VideoRecord>, b: seq<VideoRecord>)
    requires Fresh(known, a) && Fresh(known + Urls(a), b)
    ensures Fresh(known, a + b)
  {
    var ab := a + b;
    forall i, j | 0 <= i < j < |ab|
      ensures ab[i].url != ab[j].url
    {
      if i < |a| && j >= |a| {
        assert ab[j] == b[j - |a|];
        assert Urls(a)[i] == ab[i].url;
        assert ab[i].url in known + Urls(a);
      }
    }
    forall i | 0 <= i < |ab|
      ensures ab[i].url !in known
    {
      if i >= |a| {
        assert ab[i] == b[i - |a|];
      }
    }
  }

  /** The columns of a concatenation are the concatenated columns. */
  lemma ColumnsConcat(a: seq<VideoRecord>, b: seq<VideoRecord>)
    ensures Urls(a + b) == Urls(a) + Urls(b)
    ensures Titles(a + b) == Titles(a) + Titles(b)
    ensures Pubdates(a + b) == Pubdates(a) + Pubdates(b)
  {
    var ab := a + b;
    forall i | 0 <= i < |ab|
      ensures Urls(ab)[i] == (Urls(a) + Urls(b))[i]
      ensures Titles(ab)[i] == (Titles(a) + Titles(b))[i]
      ensures Pubdates(ab)[i] == (Pubdates(a) + Pubdates(b))[i]
    {
      if i >= |a| {
        assert ab[i] == b[i - |a|];
      }
    }
  }
}

=== FILE: results.dfy ===
/** Failure-carrying wrappers shared by every module of the model. */
module Results {

  /** A value that may be absent (Python's `None`). */
  datatype Option<+T> = None | Some(value: T)

  /** The outcome of an operation that either produces a value or raises. */
  datatype Result<+T, +E> = Ok(value: T) | Err(error: E)
}

=== FILE: store_file.dfy ===
/** The output file as text. Opened for reading in text mode (`newline=None`), its "\r\n"
    and lone '\r' line ends are read as '\n', and `readlines` then cuts it after every '\n'.
    Appending a written line puts its text at the end of the file. */
module StoreFile {
  import opened Results
  import opened Records
  import opened Text
  import opened LineFormat

  const Newline: char := '\n'
  const Return: char := '\r'

  /** Text without a newline. */
  predicate Unbroken(s: string) {
    FreeOf(s, {Newline})
  }

  /** A complete line: text without a newline, then one newline. */
  predicate WholeLine(line: string) {
    |line| > 0 && line[|line| - 1] == Newline && Unbroken(line[..|line| - 1])
  }

  /** The length of the first line of `s`, newline included when there is one. */
  function LineEnd(s: string): (k: nat)
    requires |s| > 0
    ensures 0 < k <= |s|
  {
    if s[0] == Newline || |s| == 1 then 1 else 1 + LineEnd(s[1..])
  }

  /** The first line holds no newline but the one that ends it, and only the last line
      of a text may lack one. */
  lemma {:induction false} LineEndSpec(s: string)
    requires |s| > 0
    ensures var k := LineEnd(s);
      Unbroken(s[..k - 1]) && (k < |s| ==> s[k - 1] == Newline)
    decreases |s|
  {
    if s[0] != Newline && |s| > 1 {
      LineEndSpec(s[1..]);
      var k := LineEnd(s);
      assert s[..k - 1] == [s[0]] + s[1..][..k - 2];
      FreeOfAppend([s[0]], s[1..][..k - 2], {Newline});
      assert k < |s| ==> s[k - 1] == s[1..][k - 2];
    }
  }

  /** The text of a list of lines. */
  function Flatten(lines: seq<string>): (r: string) {
    if |lines| == 0 then [] else lines[0] + Flatten(lines[1..])
  }

  /** The cut of `readlines` on text whose line ends are already '\n': every line keeps
      its newline; the last one may lack it. */
  function ReadLines(s: string): (r: seq<string>)
    decreases |s|
  {
    if |s| == 0 then []
    else
      var k := LineEnd(s);
      [s[..k]] + ReadLines(s[k..])
  }

  /** The text a file opened with `open(path, 'r')` yields: with the default
      `newline=None`, "\r\n" and a lone '\r' are both read as '\n'. */
  function Universal(s: string): (r: string)
    decreases |s|
  {
    if |s| == 0 then []
    else if s[0] == Return then
      if |s| > 1 && s[1] == Newline then [Newline] + Universal(s[2..]) else [Newline] + Universal(s[1..])
    else [s[0]] + Universal(s[1..])
  }

  /** `f.readlines()` on the file whose text is `s` (ytchan_dl.py:115-116). */
  function ReadText(s: string): (r: seq<string>) {
    ReadLines(Universal(s))
  }

  /** No carriage return survives reading. */
  lemma {:induction false} UniversalNoReturn(s: string)
    ensures FreeOf(Universal(s), {Return})
    decreases |s|
  {
    if |s| > 0 {
      if s[0] == Return && |s| > 1 && s[1] == Newline {
        UniversalNoReturn(s[2..]);
        FreeOfAppend([Newline], Universal(s[2..]), {Return});
      } else {
        UniversalNoReturn(s[1..]);
        var head := if s[0] == Return then [Newline] else [s[0]];
        FreeOfAppend(head, Universal(s[1..]), {Return});
      }
    }
  }

  lemma {:induction false} UniversalFree(s: string)
    requires FreeOf(s, {Return})
    ensures Universal(s) == s
    decreases |s|
  {
    if |s| > 0 {
      UniversalFree(s[1..]);
      assert [s[0]] + s[1..] == s;
    }
  }

  /** Text is read unchanged exactly when it holds no carriage return. */
  lemma UniversalKeeps(s: string)
    ensures Universal(s) == s <==> FreeOf(s, {Return})
  {
    if FreeOf(s, {Return}) {
      UniversalFree(s);
    } else {
      UniversalNoReturn(s);
    }
  }

  /** "\r\n" at the front is read as one '\n'. */
  lemma UniversalCrLf(s: string)
    requires |s| > 1 && s[0] == Return && s[1] == Newline
    ensures Universal(s) == [Newline] + Universal(s[2..])
  {
  }

  /** Any other first character is read on its own, a '\r' as '\n'. */
  lemma UniversalOne(s: string)
    requires |s| > 0 && !(s[0] == Return && |s| > 1 && s[1] == Newline)
    ensures Universal(s) == [if s[0] == Return then Newline else s[0]] + Universal(s[1..])
  {
  }

  /** The step of `UniversalAppend` past a leading "\r\n". */
  lemma AppendCrLfStep(a: string, b: string)
    requires |a| > 1 && a[0] == Return && a[1] == Newline
    requires Universal(a[2..] + b) == Universal(a[2..]) + Universal(b)
    ensures Universal(a + b) == Universal(a) + Universal(b)
  {
    var ab := a + b;
    assert ab[0] == Return && ab[1] == Newline;
    DropAppend(a, b, 2);
    UniversalCrLf(ab);
    UniversalCrLf(a);
    AppendAssoc([Newline], Universal(a[2..]), Universal(b));
  }

  /** The step of `UniversalAppend` past any other first character. */
  lemma AppendOneStep(a: string, b: string)
    requires |a| > 0 && !(a[0] == Return && |a| > 1 && a[1] == Newline)
    requires |a| > 1 || a[0] != Return || |b| == 0 || b[0] != Newline
    requires Universal(a[1..] + b) == Universal(a[1..]) + Universal(b)
    ensures Universal(a + b) == Universal(a) + Universal(b)
  {
    var ab := a + b;
    DropAppend(a, b, 1);
    if a[0] == Return && |a| > 1 {
      assert ab[1] == a[1];
    }
    var head := [if a[0] == Return then Newline else a[0]];
    var x, y := Universal(a[1..]), Universal(b);
    calc {
      Universal(ab);
      == { UniversalOne(ab); }
      head + Universal(ab[1..]);
      == head + (x + y);
      == { AppendAssoc(head, x, y); }
      head + x + y;
      == { UniversalOne(a); }
      Universal(a) + y;
    }
  }

  /** Two texts are read independently unless the first ends in '\r' and the second
      starts with '\n', which together make one line end. */
  lemma {:induction false} UniversalAppend(a: string, b: string)
    requires |a| == 0 || a[|a| - 1] != Return || |b| == 0 || b[0] != Newline
    ensures Universal(a + b) == Universal(a) + Universal(b)
    decreases |a|
  {
    if |a| == 0 {
      assert a + b == b;
    } else if a[0] == Return && |a| > 1 && a[1] == Newline {
      UniversalAppend(a[2..], b);
      AppendCrLfStep(a, b);
    } else {
      UniversalAppend(a[1..], b);
      AppendOneStep(a, b);
    }
  }

  /** The last character read is the file's last, with a final '\r' read as '\n'. */
  lemma {:induction false} UniversalLast(s: string)
    requires |s| > 0
    ensures var u := Universal(s);
      |u| > 0 && u[|u| - 1] == (if s[|s| - 1] == Return then Newline else s[|s| - 1])
    decreases |s|
  {
    if s[0] == Return && |s| > 1 && s[1] == Newline {
      if |s| > 2 {
        UniversalLast(s[2..]);
        assert s[2..][|s| - 3] == s[|s| - 1];
      }
    } else if |s| > 1 {
      UniversalLast(s[1..]);
      assert s[1..][|s| - 2] == s[|s| - 1];
    }
  }

  /** A line ended by "\r\n" is read as the same line ended by '\n'. */
  lemma CrLfEndsLine(body: string, rest: string)
    requires FreeOf(body, {Newline, Return})
    ensures ReadText(body + [Return, Newline] + rest) == [body + [Newline]] + ReadText(rest)
  {
    assert FreeOf(body, {Return});
    UniversalFree(body);
    var line := body + [Newline];
    assert line[..|line| - 1] == body;
    ReadLinesCons(line, Universal(rest));
    var crlf := [Return, Newline] + rest;
    UniversalAppend(body, crlf);
    DropAppend([Return, Newline], rest, 2);
    UniversalCrLf(crlf);
    AppendAssoc(body, [Return, Newline], rest);
    AppendAssoc(body, [Newline], Universal(rest));
  }

  /** A line ended by a '\r' that no '\n' follows is read as the same line ended by
      '\n'. */
  lemma LoneReturnEndsLine(body: string, rest: string)
    requires FreeOf(body, {Newline, Return})
    requires |rest| == 0 || rest[0] != Newline
    ensures ReadText(body + [Return] + rest) == [body + [Newline]] + ReadText(rest)
  {
    assert FreeOf(body, {Return});
    UniversalFree(body);
    var line := body + [Newline];
    assert line[..|line| - 1] == body;
    ReadLinesCons(line, Universal(rest));
    var cr := [Return] + rest;
    UniversalAppend(body, cr);
    DropAppend([Return], rest, 1);
    UniversalOne(cr);
    AppendAssoc(body, [Return], rest);
    AppendAssoc(body, [Newline], Universal(rest));
  }

  /** A line ended by "\r\n", or by a '\r' not followed by '\n', is read as the same
      line ended by '\n'. */
  lemma ReturnEndsLine(body: string, rest: string)
    requires FreeOf(body, {Newline, Return})
    ensures ReadText(body + [Return, Newline] + rest) == [body + [Newline]] + ReadText(rest)
    ensures |rest| == 0 || rest[0] != Newline ==>
      ReadText(body + [Return] + rest) == [body + [Newline]] + ReadText(rest)
  {
    CrLfEndsLine(body, rest);
    if |rest| == 0 || rest[0] != Newline {
      LoneReturnEndsLine(body, rest);
    }
  }

  /** Reading loses no text: the lines put back together are the file. */
  lemma {:induction false} FlattenReadLines(s: string)
    ensures Flatten(ReadLines(s)) == s
    decreases |s|
  {
    if |s| > 0 {
      var k := LineEnd(s);
      var rest := ReadLines(s[k..]);
      FlattenReadLines(s[k..]);
      assert ([s[..k]] + rest)[1..] == rest;
      assert s == s[..k] + s[k..];
    }
  }

  /** The first line of text that starts with a whole line is that line. */
  lemma {:induction false} FirstLineEnd(line: string, rest: string)
    requires WholeLine(line)
    ensures LineEnd(line + rest) == |line|
    decreases |line|
  {
    var s := line + rest;
    if |line| > 1 {
      assert line[0] == line[..|line| - 1][0];
      assert s[0] == line[0] && s[1..] == line[1..] + rest;
      assert line[1..][..|line| - 2] == line[..|line| - 1][1..];
      FirstLineEnd(line[1..], rest);
    }
  }

  /** A whole line at the front is read as one line. */
  lemma {:induction false} ReadLinesCons(line: string, rest: string)
    requires WholeLine(line)
    ensures ReadLines(line + rest) == [line] + ReadLines(rest)
  {
    var s := line + rest;
    FirstLineEnd(line, rest);
    assert s[..|line|] == line && s[|line|..] == rest;
  }

  /** Whole lines read back as themselves: `ReadLines` inverts `Flatten`. */
  lemma {:induction false} ReadFlatten(lines: seq<string>)
    requires forall i :: 0 <= i < |lines| ==> WholeLine(lines[i])
    ensures ReadLines(Flatten(lines)) == lines
    decreases |lines|
  {
    if |lines| > 0 {
      ReadFlatten(lines[1..]);
      ReadLinesCons(lines[0], Flatten(lines[1..]));
      assert [lines[0]] + lines[1..] == lines;
    }
  }

  /** The first line of text ending in a newline is a whole line, and the rest still ends
      in a newline or is empty. */
  lemma FirstLineWhole(a: string)
    requires |a| > 0 && a[|a| - 1] == Newline
    ensures var k := LineEnd(a);
      WholeLine(a[..k]) && (|a[k..]| == 0 || a[k..][|a[k..]| - 1] == Newline)
  {
    var k := LineEnd(a);
    LineEndSpec(a);
    assert a[..k][..k - 1] == a[..k - 1];
  }

  /** Text appended after a newline (or to an empty file) starts a line of its own. */
  lemma {:induction false} ReadLinesAppend(a: string, b: string)
    requires |a| == 0 || a[|a| - 1] == Newline
    ensures ReadLines(a + b) == ReadLines(a) + ReadLines(b)
    decreases |a|
  {
    if |a| == 0 {
      assert a + b == b;
    } else {
      var k := LineEnd(a);
      var line, tail := a[..k], a[k..];
      FirstLineWhole(a);
      assert a == line + tail;
      assert a + b == line + (tail + b);
      ReadLinesAppend(tail, b);
      AppendAfterLine(line, tail, b);
    }
  }

  lemma {:induction false} AppendAfterLine(line: string, tail: string, b: string)
    requires WholeLine(line)
    requires ReadLines(tail + b) == ReadLines(tail) + ReadLines(b)
    ensures ReadLines(line + (tail + b)) == ReadLines(line + tail) + ReadLines(b)
  {
    var x, y := ReadLines(tail), ReadLines(b);
    ReadLinesCons(line, tail + b);
    ReadLinesCons(line, tail);
    assert [line] + (x + y) == [line] + x + y;
  }

  /** The line of a storable record is a whole line. */
  lemma SerializeWholeLine(r: VideoRecord)
    requires Storable(r)
    ensures WholeLine(Serialize(r))
  {
    var line := Serialize(r);
    var body := r.url + [Tab] + r.title + [Tab] + r.pubdate;
    assert line == body + [Newline];
    assert line[..|line| - 1] == body;
    FreeOfAppend(r.url, [Tab], {Newline});
    FreeOfAppend(r.url + [Tab], r.title, {Newline});
    FreeOfAppend(r.url + [Tab] + r.title, [Tab], {Newline});
    FreeOfAppend(r.url + [Tab] + r.title + [Tab], r.pubdate, {Newline});
  }

  /** The text this run appends to the file. */
  function Written(recs: seq<VideoRecord>): (r: string) {
    Flatten(Lines(recs))
  }

  /** Reading back the text written for storable records gives their lines. */
  lemma ReadWritten(recs: seq<VideoRecord>)
    requires forall i :: 0 <= i < |recs| ==> Storable(recs[i])
    ensures ReadLines(Written(recs)) == Lines(recs)
  {
    forall i | 0 <= i < |recs|
      ensures WholeLine(Lines(recs)[i])
    {
      SerializeWholeLine(recs[i]);
    }
    ReadFlatten(Lines(recs));
  }

  /** Appending a whole line to a file whose last line has no newline glues it onto that
      line: the file gains no line. */
  lemma {:induction false} AppendGluesToUnterminatedLine(a: string, line: string)
    requires |a| > 0 && a[|a| - 1] != Newline && WholeLine(line)
    ensures |ReadLines(a + line)| == |ReadLines(a)|
    decreases |a|
  {
    var k := LineEnd(a);
    LineEndSpec(a);
    if k < |a| {
      var first, tail := a[..k], a[k..];
      assert WholeLine(first) by {
        assert first[..k - 1] == a[..k - 1];
      }
      assert a == first + tail;
      assert a + line == first + (tail + line);
      ReadLinesCons(first, tail);
      ReadLinesCons(first, tail + line);
      AppendGluesToUnterminatedLine(tail, line);
    } else {
      var glued := a + line;
      assert Unbroken(a) by {
        assert a == a[..k - 1] + [a[|a| - 1]];
        FreeOfAppend(a[..k - 1], [a[|a| - 1]], {Newline});
      }
      assert WholeLine(glued) by {
        assert glued[..|glued| - 1] == a + line[..|line| - 1];
        FreeOfAppend(a, line[..|line| - 1], {Newline});
      }
      ReadLinesCons(glued, []);
      assert glued + [] == glued;
      assert a[k..] == [];
    }
  }

  /** The text of storable records holds no carriage return. */
  lemma {:induction false} WrittenNoReturn(recs: seq<VideoRecord>)
    requires forall i :: 0 <= i < |recs| ==> Storable(recs[i])
    ensures FreeOf(Written(recs), {Return})
    decreases |recs|
  {
    if |recs| > 0 {
      var r := recs[0];
      FreeOfAppend(r.url, [Tab], {Return});
      FreeOfAppend(r.url + [Tab], r.title, {Return});
      FreeOfAppend(r.url + [Tab] + r.title, [Tab], {Return});
      FreeOfAppend(r.url + [Tab] + r.title + [Tab], r.pubdate, {Return});
      FreeOfAppend(r.url + [Tab] + r.title + [Tab] + r.pubdate, "\n", {Return});
      WrittenNoReturn(recs[1..]);
      assert Lines(recs)[1..] == Lines(recs[1..]);
      assert Written(recs) == Serialize(r) + Written(recs[1..]);
      FreeOfAppend(Serialize(r), Written(recs[1..]), {Return});
    }
  }

  /** Appending a line to a file whose last line is unterminated glues the two: the file
      read back has no more lines than before. */
  lemma AppendGluesToUnterminatedText(a: string, line: string)
    requires |a| > 0 && a[|a| - 1] != Newline && a[|a| - 1] != Return
    requires WholeLine(line) && FreeOf(line, {Return})
    ensures |ReadText(a + line)| == |ReadText(a)|
  {
    UniversalAppend(a, line);
    UniversalFree(line);
    UniversalLast(a);
    AppendGluesToUnterminatedLine(Universal(a), line);
  }

  /** A file whose last line ends in a lone '\r' is not glued to: the appended line is
      read as a line of its own. */
  lemma AppendAfterReturn(a: string, line: string)
    requires |a| > 0 && a[|a| - 1] == Return
    requires WholeLine(line) && FreeOf(line, {Return}) && line[0] != Newline
    ensures ReadText(a + line) == ReadText(a) + [line]
  {
    UniversalAppend(a, line);
    UniversalFree(line);
    UniversalLast(a);
    ReadLinesAppend(Universal(a), line);
    ReadLinesCons(line, []);
    assert line + [] == line;
  }

  /** A file that ends in a newline (or is empty) and loads, with the lines of storable
      records appended, loads as its records followed by those. */
  lemma ReloadAfterAppend(kept: string, recs: seq<VideoRecord>)
    requires |kept| == 0 || kept[|kept| - 1] == Newline
    requires Load(ReadText(kept)).Ok?
    requires forall i :: 0 <= i < |recs| ==> Storable(recs[i])
    ensures Load(ReadText(kept + Written(recs))) == Ok(Load(ReadText(kept)).value + recs)
  {
    WrittenNoReturn(recs);
    UniversalAppend(kept, Written(recs));
    UniversalFree(Written(recs));
    if |kept| > 0 {
      UniversalLast(kept);
    }
    ReadLinesAppend(Universal(kept), Written(recs));
    ReadWritten(recs);
    LoadWritten(recs);
    LoadAppend(ReadText(kept), Lines(recs));
  }
}

=== FILE: text.dfy ===
/** The handful of Python string operations the scraper relies on, on `string = seq<char>`:
    `str.strip()`, `str.split(sep)`, `re.split` over single-character alternatives,
    `str.join`, `in` on strings, `re.sub` of one character and `str.rfind`. */
module Text {

  /** Python's `str.isspace()` for one character: the ASCII whitespace, the four
      information separators and the Unicode space and line/paragraph separators. */
  predicate IsSpace(c: char) {
    || c == ' ' || c == '\t' || c == '\n' || c == '\r' || c == '\U{000B}' || c == '\U{000C}'
    || ('\U{001C}' <= c <= '\U{001F}')
    || c == '\U{0085}' || c == '\U{00A0}' || c == '\U{1680}'
    || ('\U{2000}' <= c <= '\U{200A}')
    || c == '\U{2028}' || c == '\U{2029}' || c == '\U{202F}' || c == '\U{205F}' || c == '\U{3000}'
  }

  /** `s.lstrip()`: drop the leading whitespace. */
  function LStrip(s: string): (r: string)
    ensures |r| <= |s|
    ensures r == [] || !IsSpace(r[0])
  {
    if |s| > 0 && IsSpace(s[0]) then LStrip(s[1..]) else s
  }

  /** `s.rstrip()`: drop the trailing whitespace. */
  function RStrip(s: string): (r: string)
    ensures |r| <= |s| && r == s[..|r|]
    ensures r == [] || !IsSpace(r[|r| - 1])
  {
    if |s| > 0 && IsSpace(s[|s| - 1]) then RStrip(s[..|s| - 1]) else s
  }

  /** `s.strip()`. */
  function Strip(s: string): (r: string)
    ensures |r| <= |s|
    ensures r == [] || (!IsSpace(r[0]) && !IsSpace(r[|r| - 1]))
  {
    RStrip(LStrip(s))
  }

  /** True when no character of `s` is one of `seps`. */
  predicate FreeOf(s: string, seps: set<char>) {
    forall i :: 0 <= i < |s| ==> s[i] !in seps
  }

  lemma FreeOfAppend(a: string, b: string, seps: set<char>)
    requires FreeOf(a, seps) && FreeOf(b, seps)
    ensures FreeOf(a + b, seps)
  {
    forall i | 0 <= i < |a + b|
      ensures (a + b)[i] !in seps
    {
      if i >= |a| {
        assert (a + b)[i] == b[i - |a|];
      }
    }
  }

  /** Splitting at every character in `seps`, keeping empty pieces: `s.split(c)` when
      `seps == {c}`, and `re.split('a|b', s)` when `seps == {a, b}`. */
  function Split(s: string, seps: set<char>): (r: seq<string>)
    ensures |r| >= 1
  {
    if |s| == 0 then [""]
    else
      var rest := Split(s[1..], seps);
      if s[0] in seps then [""] + rest
      else [[s[0]] + rest[0]] + rest[1..]
  }

  /** No piece of a split holds a separator. */
  lemma {:induction false} SplitPiecesFree(s: string, seps: set<char>)
    ensures forall k :: 0 <= k < |Split(s, seps)| ==> FreeOf(Split(s, seps)[k], seps)
    decreases |s|
  {
    if |s| > 0 {
      SplitPiecesFree(s[1..], seps);
    }
  }

  /** `c.join(parts)`. */
  function Join(parts: seq<string>, c: char): (r: string) {
    if |parts| == 0 then ""
    else if |parts| == 1 then parts[0]
    else parts[0] + [c] + Join(parts[1..], c)
  }

  /** `sub in s` for strings. */
  predicate Contains(s: string, sub: string)
    decreases |s|
  {
    || (|sub| <= |s| && s[..|sub|] == sub)
    || (|s| > 0 && Contains(s[1..], sub))
  }

  /** `s.endswith(suffix)`. */
  predicate EndsWith(s: string, suffix: string) {
    |suffix| <= |s| && s[|s| - |suffix|..] == suffix
  }

  /** `re.sub(c, '', s)` for a single literal character `c`. */
  function Remove(s: string, c: char): (r: string)
    ensures |r| <= |s|
    ensures forall i :: 0 <= i < |r| ==> r[i] != c
  {
    if |s| == 0 then ""
    else if s[0] == c then Remove(s[1..], c)
    else [s[0]] + Remove(s[1..], c)
  }

  /** Removing a character distributes over concatenation. */
  lemma {:induction false} RemoveAppend(a: string, b: string, c: char)
    ensures Remove(a + b, c) == Remove(a, c) + Remove(b, c)
    decreases |a|
  {
    if |a| == 0 {
      assert a + b == b;
    } else {
      assert (a + b)[1..] == a[1..] + b;
      RemoveAppend(a[1..], b, c);
    }
  }

  /** Text without the character is left as it is. */
  lemma {:induction false} RemoveAbsent(s: string, c: char)
    requires FreeOf(s, {c})
    ensures Remove(s, c) == s
    decreases |s|
  {
    if |s| > 0 {
      RemoveAbsent(s[1..], c);
      assert [s[0]] + s[1..] == s;
    }
  }

  /** Removing works character by character: a trailing `c` is dropped and any other
      trailing character is kept after what is left of the rest. */
  lemma RemoveSnoc(s: string, x: char, c: char)
    ensures Remove(s + [x], c) == Remove(s, c) + (if x == c then [] else [x])
  {
    RemoveAppend(s, [x], c);
    assert Remove([x], c) == (if x == c then [] else [x]) by {
      assert [x][1..] == [];
    }
  }

  /** `s.rfind(c)`: the index of the last `c`, or -1. */
  function RFind(s: string, c: char): (r: int)
    ensures -1 <= r < |s|
    ensures r >= 0 ==> s[r] == c
    ensures forall i :: r < i < |s| ==> s[i] != c
  {
    if |s| == 0 then -1
    else if s[|s| - 1] == c then |s| - 1
    else RFind(s[..|s| - 1], c)
  }

  // ---------------------------------------------------------------------------
  // Split and Join are inverse to each other

  /** Splitting at a separator character splits the two sides independently. */
  lemma {:induction false} SplitAppend(a: string, c: char, b: string, seps: set<char>)
    requires c in seps
    ensures Split(a + [c] + b, seps) == Split(a, seps) + Split(b, seps)
    decreases |a|
  {
    if |a| == 0 {
      assert a + [c] + b == [c] + b;
      assert ([c] + b)[1..] == b;
    } else {
      assert (a + [c] + b)[0] == a[0];
      assert (a + [c] + b)[1..] == a[1..] + [c] + b;
      SplitAppend(a[1..], c, b, seps);
    }
  }

  /** A piece without separators splits into itself. */
  lemma {:induction false} SplitFree(w: string, seps: set<char>)
    requires FreeOf(w, seps)
    ensures Split(w, seps) == [w]
    decreases |w|
  {
    if |w| > 0 {
      SplitFree(w[1..], seps);
      assert [w[0]] + w[1..] == w;
    }
  }

  /** Appending a separator and a separator-free piece adds that piece as a last part. */
  lemma SplitAppendPiece(a: string, c: char, w: string, seps: set<char>)
    requires c in seps && FreeOf(w, seps)
    ensures Split(a + [c] + w, seps) == Split(a, seps) + [w]
  {
    SplitAppend(a, c, w, seps);
    SplitFree(w, seps);
  }

  /** `Join` followed by `Split` gives the pieces back when they hold no separator. */
  lemma {:induction false} SplitJoin(parts: seq<string>, c: char, seps: set<char>)
    requires |parts| >= 1 && c in seps
    requires forall k :: 0 <= k < |parts| ==> FreeOf(parts[k], seps)
    ensures Split(Join(parts, c), seps) == parts
    decreases |parts|
  {
    SplitFree(parts[0], seps);
    if |parts| > 1 {
      SplitAppend(parts[0], c, Join(parts[1..], c), seps);
      SplitJoin(parts[1..], c, seps);
      assert [parts[0]] + parts[1..] == parts;
    }
  }

  lemma JoinCons(a: string, rest: seq<string>, c: char)
    requires |rest| >= 1
    ensures Join([a] + rest, c) == a + [c] + Join(rest, c)
  {
    assert ([a] + rest)[1..] == rest;
  }

  /** A join starts with its first part and ends with its last. */
  lemma {:induction false} JoinEnds(parts: seq<string>, c: char)
    requires |parts| >= 1
    ensures |parts[0]| > 0 ==> |Join(parts, c)| > 0 && Join(parts, c)[0] == parts[0][0]
    ensures var last := parts[|parts| - 1];
      |last| > 0 ==> |Join(parts, c)| > 0 && Join(parts, c)[|Join(parts, c)| - 1] == last[|last| - 1]
    decreases |parts|
  {
    if |parts| > 1 {
      JoinEnds(parts[1..], c);
    }
  }

  /** `Split` followed by `Join` gives the string back, for one separator. */
  lemma {:induction false} JoinSplit(s: string, c: char)
    ensures Join(Split(s, {c}), c) == s
    decreases |s|
  {
    if |s| > 0 {
      var rest := Split(s[1..], {c});
      JoinSplit(s[1..], c);
      if s[0] == c {
        assert Join([""] + rest, c) == "" + [c] + Join(rest, c);
        assert [s[0]] + s[1..] == s;
      } else {
        var r := [[s[0]] + rest[0]] + rest[1..];
        if |rest| == 1 {
          assert r == [[s[0]] + rest[0]];
          assert [s[0]] + s[1..] == s;
        } else {
          assert r[1..] == rest[1..];
          assert Join(rest, c) == rest[0] + [c] + Join(rest[1..], c);
          assert [s[0]] + s[1..] == s;
        }
      }
    }
  }

  // ---------------------------------------------------------------------------
  // Stripping

  /** Nothing to strip at the front. */
  lemma LStripKeeps(s: string)
    requires |s| > 0 && !IsSpace(s[0])
    ensures LStrip(s) == s
  {
  }

  /** A string that ends in a non-space keeps its length under `rstrip`, whatever follows
      it that is all whitespace. */
  lemma {:induction false} RStripDropsTail(s: string, tail: string)
    requires |s| > 0 && !IsSpace(s[|s| - 1])
    requires forall i :: 0 <= i < |tail| ==> IsSpace(tail[i])
    ensures RStrip(s + tail) == s
    decreases |tail|
  {
    if |tail| == 0 {
      assert s + tail == s;
    } else {
      var t := tail[..|tail| - 1];
      assert (s + tail)[..|s + tail| - 1] == s + t;
      RStripDropsTail(s, t);
    }
  }

  /** A string that starts and ends in a non-space is its own `strip()`. */
  lemma StripKeeps(s: string)
    requires |s| > 0 && !IsSpace(s[0]) && !IsSpace(s[|s| - 1])
    ensures Strip(s) == s
  {
    RStripDropsTail(s, "");
    assert s + "" == s;
  }

  /** Whitespace in front of a string makes no difference to `lstrip`. */
  lemma {:induction false} LStripDropsHead(head: string, s: string)
    requires forall i :: 0 <= i < |head| ==> IsSpace(head[i])
    ensures LStrip(head + s) == LStrip(s)
    decreases |head|
  {
    if |head| > 0 {
      assert IsSpace(head[0]) && (head + s)[0] == head[0];
      assert (head + s)[1..] == head[1..] + s;
      assert LStrip(head + s) == LStrip(head[1..] + s);
      LStripDropsHead(head[1..], s);
    } else {
      assert head + s == s;
    }
  }

  /** `strip()` removes exactly the surrounding whitespace: text padded on both sides with
      whitespace strips to what is inside, provided that neither starts nor ends with
      whitespace (or is empty). Every string splits this way, so this determines `Strip`. */
  lemma StripPadded(head: string, core: string, tail: string)
    requires forall i :: 0 <= i < |head| ==> IsSpace(head[i])
    requires forall i :: 0 <= i < |tail| ==> IsSpace(tail[i])
    requires core == [] || (!IsSpace(core[0]) && !IsSpace(core[|core| - 1]))
    ensures Strip(head + core + tail) == core
  {
    assert head + core + tail == head + (core + tail);
    LStripDropsHead(head, core + tail);
    if core == [] {
      assert core + tail == tail + [];
      LStripDropsHead(tail, []);
    } else {
      assert (core + tail)[0] == core[0];
      RStripDropsTail(core, tail);
    }
  }

  /** Concatenation is associative; stated over plain sequences so that callers need not
      unfold the functions that produced them. */
  lemma AppendAssoc<T>(x: seq<T>, y: seq<T>, z: seq<T>)
    ensures x + (y + z) == x + y + z
  {
  }

  /** Dropping a prefix of the first part of a concatenation. */
  lemma DropAppend(x: string, y: string, k: nat)
    requires k <= |x|
    ensures (x + y)[k..] == x[k..] + y
  {
  }

  /** A separator that `s` is free of cannot occur inside a `sub` that contains it. */
  lemma {:induction false} NotContainedIfSeparated(s: string, sub: string, seps: set<char>, j: nat)
    requires FreeOf(s, seps)
    requires j < |sub| && sub[j] in seps
    ensures !Contains(s, sub)
    decreases |s|
  {
    if |s| > 0 {
      NotContainedIfSeparated(s[1..], sub, seps, j);
    }
  }
}

=== FILE: uploads.dfy ===
/** One run of `ChannelUploads(channel_url, outfile, overwrite_outfile)`
    (ytchan_dl.py:92-150): resolve the channel, choose and prepare the output file, load
    what it already lists, read the video count when the progress bar is shown, then run
    the newest-first pass and, when it ends without meeting a known video and found fewer
    videos than the count, the oldest-first pass. */
module Uploads {
  import opened Results
  import opened Records
  import opened LineFormat
  import opened Listing
  import opened Pagination
  import opened Channels
  import opened StoreFile
  import opened VideoCount
  import Text
  import CommandLine

  /** What the site answers during one pass: the listing's first page and the
      continuation payloads, in the order they are requested. */
  datatype Answers = Answers(first: Page, payloads: seq<Payload>)

  /** Everything a run reads from outside: its arguments, the files on disk, the reply
      to the overwrite prompt, the search result's meta text (absent when the search lists
      nothing) and the site's answers for both passes. */
  datatype Env = Env(
    channelUrl: string,
    outfile: Option<string>,
    overwrite: bool,
    files: map<string, string>,
    reply: string,
    searchMeta: Option<string>,
    newest: Answers,
    oldest: Answers)

  /** Why a run raised. `ProgressBarMissing` is the `AttributeError` of `pbar.n` when no
      progress bar was created (line 143). */
  datatype RunError =
    | BadChannelUrl
    | CorruptFile(load: LoadError)
    | NoSearchResult
    | BadCount(count: CountError)
    | PassFailed(pass: PassError)
    | ProgressBarMissing

  datatype Outcome = Done | Crashed(error: RunError)

  /** The run's effects: the output path, whether the user was asked to confirm the
      overwrite, the files afterwards, the requests in order, the records appended and the
      lists afterwards. */
  datatype RunResult = RunResult(path: string, prompted: bool, files: map<string, string>,
                                 requests: seq<Request>, appended: seq<VideoRecord>, state: State,
                                 outcome: Outcome)

  const SearchPrefix: string := "https://www.youtube.com/results?search_query="

  const TxtSuffix: string := ".txt"

  /** The lists before any page is walked: the class-level lists start empty. */
  const Empty: State := State([], [], [], [])

  /** `if not outfile: outfile = channel_id + '.txt'`. */
  function OutfilePath(outfile: Option<string>, id: string): (p: string)
    ensures outfile.Some? && outfile.value != [] ==> p == outfile.value
    ensures outfile.None? || outfile.value == [] ==> p == id + TxtSuffix
  {
    match outfile
    case Some(name) => if name == [] then id + TxtSuffix else name
    case None => id + TxtSuffix
  }

  /** The output path is a `.txt` path in the sense of `os.path.splitext`: the default one
      when the channel id holds a character other than a dot, and a given one when the
      command line accepted it. */
  lemma OutfileIsTxt(outfile: Option<string>, id: string)
    requires outfile.Some? && outfile.value != [] ==> CommandLine.TxtPath(outfile.value)
    requires ValidId(id) && exists k :: 0 <= k < |id| && id[k] != '.'
    ensures CommandLine.TxtPath(OutfilePath(outfile, id))
    ensures CommandLine.SplitExt(OutfilePath(outfile, id)).1 == TxtSuffix
  {
    var p := OutfilePath(outfile, id);
    if outfile.None? || outfile.value == [] {
      var k :| 0 <= k < |id| && id[k] != '.';
      assert p[..|id|] == id && p[|id|..] == TxtSuffix;
      assert p[k] == id[k] && id[k] != '/';
      assert p[k..|p| - |TxtSuffix|] == id[k..];
      assert Text.FreeOf(p[k..|p| - |TxtSuffix|], {'/'});
    }
    CommandLine.TxtExtension(p);
  }

  /** The file handling of lines 100-111: whether the user is asked, whether the file is
      emptied, and whether the progress bar is shown. */
  datatype FileDecision = FileDecision(prompted: bool, truncate: bool, display: bool)

  function Decide(exists_: bool, overwrite: bool, reply: string): (d: FileDecision)
    ensures d.prompted <==> exists_ && overwrite
    ensures d.truncate <==> d.prompted && reply == "y"
    ensures d.display <==> !exists_ || d.truncate
  {
    if exists_ then
      if overwrite then
        if reply == "y" then FileDecision(true, true, true) else FileDecision(true, false, false)
      else FileDecision(false, false, false)
    else FileDecision(false, false, true)
  }

  /** The file's text once the decision is applied: emptied, kept, or absent. */
  function KeptText(files: map<string, string>, path: string, d: FileDecision): (r: string) {
    if path in files && !d.truncate then files[path] else ""
  }

  /** The lists holding the records loaded from the file; nothing is written yet. */
  function LoadedState(recs: seq<VideoRecord>): (st: State) {
    State(Urls(recs), Titles(recs), Pubdates(recs), [])
  }

  /** The video count read from the search page, or why it could not be read. */
  function Count(meta: Option<string>): (r: Result<int, RunError>)
    ensures r.Err? ==> r.error == NoSearchResult || r.error.BadCount?
    ensures meta.None? ==> r == Err(NoSearchResult)
    ensures meta.Some? ==> (r.Ok? <==> ParseVideoCount(meta.value).Ok?)
    ensures r.Ok? ==> meta.Some? && r.value == ParseVideoCount(meta.value).value
  {
    match meta
    case None => Err(NoSearchResult)
    case Some(text) =>
      match ParseVideoCount(text)
      case Err(e) => Err(BadCount(e))
      case Ok(n) => Ok(n)
  }

  /** The count shown on the search page is the count the run reads, and a page that
      shows words where the count belongs makes the run crash with the parse error. */
  lemma CountReadsDisplay(n: nat, words: string)
    ensures Count(Some(Grouped(n) + " " + words)) == Ok(n)
    ensures |words| > 0 && !IsDigit(words[0]) && !Text.IsSpace(words[0]) && words[0] !in {'+', '-', ','}
            ==> Count(Some(words)).Err? && Count(Some(words)).error.BadCount?
  {
    CountRoundTrip(n, words);
    if |words| > 0 && !IsDigit(words[0]) && !Text.IsSpace(words[0]) && words[0] !in {'+', '-', ','} {
      WordsFailToParse(words);
    }
  }

  /** The outcome of a pass as the constructor sees it. */
  function PassOutcome(end: PassEnd): (r: Outcome) {
    if end.Failed? then Crashed(PassFailed(end.error)) else Done
  }

  /** Whether the oldest-first pass runs after a newest-first pass that ended `end` and
      appended `n` records: only after it returned `True` (line 137), with a progress bar
      whose count `n` is below the video count (line 143). */
  predicate BackwardRuns(end: PassEnd, count: Option<int>, n: nat) {
    end == Finished && count.Some? && n < count.value
  }

  /** The two passes, from the lists `st` loaded off the file whose text is `kept`. */
  function Passes(env: Env, ref: ChannelRef, path: string, files: map<string, string>, kept: string,
                  st: State, count: Option<int>): (r: RunResult)
    ensures r.files == files[path := kept + Written(r.appended)]
    ensures r.path == path
    ensures r.outcome.Crashed? ==> r.outcome.error.PassFailed? || r.outcome.error == ProgressBarMissing
    ensures r.state == Appended(st, r.appended) && Fresh(st.urls, r.appended)
    ensures var fwd := FetchAndScroll(st, VideosUrl(ref), env.newest.first, env.newest.payloads);
      && (r.outcome == Crashed(ProgressBarMissing) <==> count.None? && fwd.end == Finished)
      && |r.requests| >= |fwd.requests| && r.requests[..|fwd.requests|] == fwd.requests
      && |r.appended| >= |fwd.appended| && r.appended[..|fwd.appended|] == fwd.appended
      && (BackwardRuns(fwd.end, count, |fwd.appended|) <==> |r.requests| > |fwd.requests|)
      && (BackwardRuns(fwd.end, count, |fwd.appended|) ==>
            r.requests[|fwd.requests|] == Get(VideosUrl(ref) + OldestFirstQuery))
      && (!BackwardRuns(fwd.end, count, |fwd.appended|) ==>
            r.appended == fwd.appended
            && r.outcome == (if fwd.end == Finished && count.None? then Crashed(ProgressBarMissing)
                             else PassOutcome(fwd.end)))
  {
    var url := VideosUrl(ref);
    var fwd := FetchAndScroll(st, url, env.newest.first, env.newest.payloads);
    if fwd.end != Finished then
      RunResult(path, false, files[path := kept + Written(fwd.appended)], fwd.requests, fwd.appended,
                fwd.state, PassOutcome(fwd.end))
    else if count.None? then
      RunResult(path, false, files[path := kept + Written(fwd.appended)], fwd.requests, fwd.appended,
                fwd.state, Crashed(ProgressBarMissing))
    else if |fwd.appended| < count.value then
      Backward(env, url, path, files, kept, st, fwd.appended, fwd.requests)
    else
      RunResult(path, false, files[path := kept + Written(fwd.appended)], fwd.requests, fwd.appended,
                fwd.state, Done)
  }

  /** The oldest-first pass, after a newest-first pass that appended `before`. */
  function Backward(env: Env, url: string, path: string, files: map<string, string>, kept: string,
                    st: State, before: seq<VideoRecord>, requests: seq<Request>): (r: RunResult)
    requires Fresh(st.urls, before)
    ensures r.files == files[path := kept + Written(r.appended)]
    ensures r.path == path
    ensures r.outcome.Crashed? ==> r.outcome.error.PassFailed?
    ensures r.state == Appended(st, r.appended) && Fresh(st.urls, r.appended)
    ensures |r.appended| >= |before| && r.appended[..|before|] == before
    ensures |r.requests| > |requests| && r.requests[..|requests|] == requests
    ensures r.requests[|requests|] == Get(url + OldestFirstQuery)
  {
    var mid := Appended(st, before);
    var bwd := FetchAndScroll(mid, url + OldestFirstQuery, env.oldest.first, env.oldest.payloads);
    FetchRequests(mid, url + OldestFirstQuery, env.oldest.first, env.oldest.payloads);
    FreshChain(st, before, bwd.appended);
    assert (before + bwd.appended)[..|before|] == before;
    assert (requests + bwd.requests)[..|requests|] == requests;
    RunResult(path, false, files[path := kept + Written(before + bwd.appended)],
              requests + bwd.requests, before + bwd.appended, bwd.state, PassOutcome(bwd.end))
  }

  /** The search request that reads the video count: only with a progress bar. */
  function Search(display: bool, id: string): (r: seq<Request>) {
    if display then [Get(SearchPrefix + id)] else []
  }

  /** The progress bar's total, once the count has been read: none without a bar. */
  function BarTotal(display: bool, meta: Option<string>): (r: Option<int>)
    requires display ==> Count(meta).Ok?
  {
    if display then Some(Count(meta).value) else None
  }

  /** Everything after the file has been read. */
  function AfterLoad(env: Env, ref: ChannelRef, path: string, d: FileDecision, files: map<string, string>,
                     kept: string, loaded: seq<VideoRecord>): (r: RunResult)
    ensures r.path == path && r.prompted == d.prompted
    ensures r.outcome.Crashed? ==> !r.outcome.error.BadChannelUrl? && !r.outcome.error.CorruptFile?
    ensures r.state == Appended(LoadedState(loaded), r.appended) && Fresh(Urls(loaded), r.appended)
    ensures var failed := d.display && Count(env.searchMeta).Err?;
      && (failed <==> r.outcome.Crashed? && (r.outcome.error == NoSearchResult || r.outcome.error.BadCount?))
      && (failed ==> r.files == files && r.appended == [] && r.requests == [Get(SearchPrefix + ref.id)])
      && (!failed ==> r.files == files[path := kept + Written(r.appended)])
  {
    var st := LoadedState(loaded);
    if d.display && Count(env.searchMeta).Err? then
      assert st == Appended(st, []);
      RunResult(path, d.prompted, files, Search(d.display, ref.id), [], st, Crashed(Count(env.searchMeta).error))
    else
      var r := Passes(env, ref, path, files, kept, st, BarTotal(d.display, env.searchMeta));
      r.(prompted := d.prompted, requests := Search(d.display, ref.id) + r.requests)
  }

  /** Only the file at `path` may differ between `before` and `after`. */
  predicate OnlyChanges(before: map<string, string>, after: map<string, string>, path: string) {
    && (forall p :: p in before && p != path ==> p in after && after[p] == before[p])
    && (forall p :: p in after ==> p in before || p == path)
  }

  lemma OnlyChangesTrans(a: map<string, string>, b: map<string, string>, c: map<string, string>, path: string)
    requires OnlyChanges(a, b, path) && OnlyChanges(b, c, path)
    ensures OnlyChanges(a, c, path)
  {
  }

  /** Reading the kept text, then everything after it. */
  function FromFile(env: Env, ref: ChannelRef, path: string, d: FileDecision, files: map<string, string>,
                    kept: string): (r: RunResult)
    ensures r.path == path && r.prompted == d.prompted
    ensures OnlyChanges(files, r.files, path)
    ensures r.outcome.Crashed? ==> !r.outcome.error.BadChannelUrl?
  {
    match Load(ReadText(kept))
    case Err(e) => RunResult(path, d.prompted, files, [], [], Empty, Crashed(CorruptFile(e)))
    case Ok(loaded) => AfterLoad(env, ref, path, d, files, kept, loaded)
  }

  /** The output path, the file decision, the files once the decision is applied and
      the text kept from the file, for the channel `ref`. */
  function PathOf(env: Env, ref: ChannelRef): (r: string) {
    OutfilePath(env.outfile, ref.id)
  }

  function DecisionOf(env: Env, ref: ChannelRef): (r: FileDecision) {
    Decide(PathOf(env, ref) in env.files, env.overwrite, env.reply)
  }

  function FilesOf(env: Env, ref: ChannelRef): (r: map<string, string>) {
    if DecisionOf(env, ref).truncate then env.files[PathOf(env, ref) := []] else env.files
  }

  function KeptOf(env: Env, ref: ChannelRef): (r: string) {
    KeptText(env.files, PathOf(env, ref), DecisionOf(env, ref))
  }

  /** Everything after the channel has been resolved. */
  function Resolved(env: Env, ref: ChannelRef): (r: RunResult)
    ensures r.path == PathOf(env, ref)
    ensures r.outcome != Crashed(BadChannelUrl)
    ensures OnlyChanges(env.files, r.files, r.path)
  {
    var path := PathOf(env, ref);
    var r := FromFile(env, ref, path, DecisionOf(env, ref), FilesOf(env, ref), KeptOf(env, ref));
    OnlyChangesTrans(env.files, FilesOf(env, ref), r.files, path);
    r
  }

  /** `ChannelUploads.__init__`. */
  function Run(env: Env): (r: RunResult)
    ensures r.outcome == Crashed(BadChannelUrl) <==> ExtractChannelId(env.channelUrl).Err?
    ensures r.outcome == Crashed(BadChannelUrl) ==> r.files == env.files && r.requests == []
    ensures OnlyChanges(env.files, r.files, r.path)
  {
    match ExtractChannelId(env.channelUrl)
    case Err(_) => RunResult([], false, env.files, [], [], Empty, Crashed(BadChannelUrl))
    case Ok(ref) => Resolved(env, ref)
  }

  // ---------------------------------------------------------------------------
  // Properties of a whole run

  /** The channel resolves to `ref` and the kept text of its output file loads as
      `loaded`. */
  predicate Loads(env: Env, ref: ChannelRef, loaded: seq<VideoRecord>) {
    ExtractChannelId(env.channelUrl) == Ok(ref) && Load(ReadText(KeptOf(env, ref))) == Ok(loaded)
  }

  /** The newest-first pass of a run whose file loaded as `loaded`. */
  function Forward(env: Env, ref: ChannelRef, loaded: seq<VideoRecord>): (r: PassResult) {
    FetchAndScroll(LoadedState(loaded), VideosUrl(ref), env.newest.first, env.newest.payloads)
  }

  lemma RunAfterLoad(env: Env, ref: ChannelRef, loaded: seq<VideoRecord>)
    requires Loads(env, ref, loaded)
    ensures Run(env) == AfterLoad(env, ref, PathOf(env, ref), DecisionOf(env, ref), FilesOf(env, ref),
                                  KeptOf(env, ref), loaded)
  {
  }

  /** `PassSelection` for the stages after the load. */
  lemma AfterLoadSelection(env: Env, ref: ChannelRef, path: string, d: FileDecision,
                           files: map<string, string>, kept: string, loaded: seq<VideoRecord>)
    requires d.display ==> Count(env.searchMeta).Ok?
    ensures var r := AfterLoad(env, ref, path, d, files, kept, loaded);
      var fwd := Forward(env, ref, loaded);
      var search := Search(d.display, ref.id);
      var count := BarTotal(d.display, env.searchMeta);
      var n := |search| + |fwd.requests|;
      && r.files == files[path := kept + Written(r.appended)]
      && |r.requests| >= n && r.requests[..n] == search + fwd.requests
      && |r.appended| >= |fwd.appended| && r.appended[..|fwd.appended|] == fwd.appended
      && (BackwardRuns(fwd.end, count, |fwd.appended|) <==> |r.requests| > n)
      && (BackwardRuns(fwd.end, count, |fwd.appended|) ==>
            r.requests[n] == Get(VideosUrl(ref) + OldestFirstQuery))
      && (!BackwardRuns(fwd.end, count, |fwd.appended|) ==>
            r.appended == fwd.appended
            && r.outcome == (if fwd.end == Finished && count.None? then Crashed(ProgressBarMissing)
                             else PassOutcome(fwd.end)))
  {
    var search := Search(d.display, ref.id);
    var p := Passes(env, ref, path, files, kept, LoadedState(loaded), BarTotal(d.display, env.searchMeta));
    var fwd := Forward(env, ref, loaded);
    assert AfterLoad(env, ref, path, d, files, kept, loaded).requests == search + p.requests;
    PrefixAfter(search, p.requests, fwd.requests);
  }

  /** A prefix of `b` extends to a prefix of `a + b`. */
  lemma PrefixAfter(a: seq<Request>, b: seq<Request>, c: seq<Request>)
    requires |b| >= |c| && b[..|c|] == c
    ensures (a + b)[..|a| + |c|] == a + c
    ensures |b| > |c| ==> (a + b)[|a| + |c|] == b[|c|]
  {
    assert (a + b)[..|a| + |c|] == a + b[..|c|];
  }

  /** `ProgressBarCrash` for the stages after the load. */
  lemma AfterLoadBarCrash(env: Env, ref: ChannelRef, path: string, d: FileDecision,
                          files: map<string, string>, kept: string, loaded: seq<VideoRecord>)
    ensures AfterLoad(env, ref, path, d, files, kept, loaded).outcome == Crashed(ProgressBarMissing)
        <==> !d.display && Forward(env, ref, loaded).end == Finished
  {
  }

  /** The run reads `pbar.n` without a progress bar, and crashes, exactly when the output
      file existed and was kept and the newest-first pass ran out of continuations without
      meeting a known video. */
  lemma ProgressBarCrash(env: Env, ref: ChannelRef, loaded: seq<VideoRecord>)
    requires Loads(env, ref, loaded)
    ensures Run(env).outcome == Crashed(ProgressBarMissing)
        <==> PathOf(env, ref) in env.files && !DecisionOf(env, ref).truncate
             && Forward(env, ref, loaded).end == Finished
  {
    RunAfterLoad(env, ref, loaded);
    AfterLoadBarCrash(env, ref, PathOf(env, ref), DecisionOf(env, ref), FilesOf(env, ref),
                      KeptOf(env, ref), loaded);
  }

  /** The requests of a run whose count, if needed, was read: the search (with a progress
      bar), the newest-first pass, and then the oldest-first pass exactly when the first
      pass returned `True` and the bar's count is below the video count. */
  lemma PassSelection(env: Env, ref: ChannelRef, loaded: seq<VideoRecord>)
    requires Loads(env, ref, loaded)
    requires DecisionOf(env, ref).display ==> Count(env.searchMeta).Ok?
    ensures var r := Run(env);
      var fwd := Forward(env, ref, loaded);
      var search := Search(DecisionOf(env, ref).display, ref.id);
      var count := BarTotal(DecisionOf(env, ref).display, env.searchMeta);
      var n := |search| + |fwd.requests|;
      && r.files == FilesOf(env, ref)[PathOf(env, ref) := KeptOf(env, ref) + Written(r.appended)]
      && |r.requests| >= n && r.requests[..n] == search + fwd.requests
      && |r.appended| >= |fwd.appended| && r.appended[..|fwd.appended|] == fwd.appended
      && (BackwardRuns(fwd.end, count, |fwd.appended|) <==> |r.requests| > n)
      && (BackwardRuns(fwd.end, count, |fwd.appended|) ==>
            r.requests[n] == Get(VideosUrl(ref) + OldestFirstQuery))
      && (!BackwardRuns(fwd.end, count, |fwd.appended|) ==>
            r.appended == fwd.appended
            && r.outcome == (if fwd.end == Finished && count.None? then Crashed(ProgressBarMissing)
                             else PassOutcome(fwd.end)))
  {
    RunAfterLoad(env, ref, loaded);
    AfterLoadSelection(env, ref, PathOf(env, ref), DecisionOf(env, ref), FilesOf(env, ref),
                       KeptOf(env, ref), loaded);
  }

  /** A file that loads any record was kept, so the run shows no progress bar and makes
      no search request. */
  lemma KeptFileShowsNoBar(env: Env, ref: ChannelRef, loaded: seq<VideoRecord>)
    requires Loads(env, ref, loaded) && |loaded| > 0
    ensures PathOf(env, ref) in env.files && !DecisionOf(env, ref).truncate
    ensures !DecisionOf(env, ref).display
  {
  }

  /** A run whose channel listing starts with a video the file already lists stops at the
      first page: it appends nothing, writes nothing and ends normally (line 211 returns
      `stop_scraping`, so the constructor returns at line 137). With a file that lists
      videos there is no progress bar, so the GET of the listing is the run's only
      request. */
  lemma ResumeStopsAtKnown(env: Env, ref: ChannelRef, loaded: seq<VideoRecord>)
    requires Loads(env, ref, loaded)
    requires |env.newest.first.entries| > 0 && ExtractRecord(env.newest.first.entries[0]).Ok?
    requires ExtractRecord(env.newest.first.entries[0]).value.url in Urls(loaded)
    ensures var r := Run(env);
      && !DecisionOf(env, ref).display
      && r.appended == [] && r.outcome == Done
      && r.requests == [Get(VideosUrl(ref))]
      && r.files == FilesOf(env, ref)[PathOf(env, ref) := KeptOf(env, ref)]
  {
    KeptFileShowsNoBar(env, ref, loaded);
    var st := LoadedState(loaded);
    FirstEntryDecides(st, env.newest.first.entries);
    FetchKeepsFirstPage(st, VideosUrl(ref), env.newest.first, env.newest.payloads);
    PassSelection(env, ref, loaded);
    var r := Run(env);
    assert r.requests == r.requests[..1];
    assert KeptOf(env, ref) + Written([]) == KeptOf(env, ref);
  }

  /** Running again over the file a run left behind, with the site unchanged, appends
      nothing: the file now lists every video the first run found, so the second run meets
      a known video at the top of the listing. The file must end in a newline (or be
      empty) and the records found must be storable, or the lines written would not read
      back as records. */
  lemma RerunAppendsNothing(env: Env, ref: ChannelRef, loaded: seq<VideoRecord>)
    requires Loads(env, ref, loaded)
    requires DecisionOf(env, ref).display ==> Count(env.searchMeta).Ok?
    requires |KeptOf(env, ref)| == 0 || KeptOf(env, ref)[|KeptOf(env, ref)| - 1] == Newline
    requires |env.newest.first.entries| > 0 && ExtractRecord(env.newest.first.entries[0]).Ok?
    requires forall i :: 0 <= i < |Run(env).appended| ==> Storable(Run(env).appended[i])
    ensures var r := Run(env);
      var again := env.(files := r.files, overwrite := false);
      && Loads(again, ref, loaded + r.appended)
      && Run(again).appended == [] && Run(again).outcome == Done && Run(again).files == r.files
  {
    var r := Run(env);
    var again := env.(files := r.files, overwrite := false);
    PassSelection(env, ref, loaded);
    ReloadWhatRunLeft(env, ref, loaded, r);
    FirstEntryListed(env, ref, loaded);
    ResumeStopsAtKnown(again, ref, loaded + r.appended);
    assert FilesOf(again, ref) == r.files && KeptOf(again, ref) == r.files[PathOf(again, ref)];
    RewriteSame(r.files, PathOf(again, ref));
  }

  /** Writing a file's own text back changes nothing. */
  lemma RewriteSame(files: map<string, string>, path: string)
    requires path in files
    ensures files[path := files[path]] == files
  {
  }

  /** The file a run left behind, opened without overwriting, loads as the loaded records
      followed by the appended ones. */
  lemma ReloadWhatRunLeft(env: Env, ref: ChannelRef, loaded: seq<VideoRecord>, r: RunResult)
    requires Loads(env, ref, loaded)
    requires |KeptOf(env, ref)| == 0 || KeptOf(env, ref)[|KeptOf(env, ref)| - 1] == Newline
    requires forall i :: 0 <= i < |r.appended| ==> Storable(r.appended[i])
    requires r.files == FilesOf(env, ref)[PathOf(env, ref) := KeptOf(env, ref) + Written(r.appended)]
    ensures Loads(env.(files := r.files, overwrite := false), ref, loaded + r.appended)
  {
    var again := env.(files := r.files, overwrite := false);
    assert PathOf(again, ref) == PathOf(env, ref);
    assert KeptOf(again, ref) == KeptOf(env, ref) + Written(r.appended);
    ReloadAfterAppend(KeptOf(env, ref), r.appended);
  }

  /** After a run that read the count it needed, the first video of the listing is listed:
      it was in the file already, or the run appended it first. */
  lemma FirstEntryListed(env: Env, ref: ChannelRef, loaded: seq<VideoRecord>)
    requires Loads(env, ref, loaded)
    requires DecisionOf(env, ref).display ==> Count(env.searchMeta).Ok?
    requires |env.newest.first.entries| > 0 && ExtractRecord(env.newest.first.entries[0]).Ok?
    ensures ExtractRecord(env.newest.first.entries[0]).value.url in Urls(loaded + Run(env).appended)
  {
    var r := Run(env);
    var rec := ExtractRecord(env.newest.first.entries[0]).value;
    ColumnsConcat(loaded, r.appended);
    if rec.url !in Urls(loaded) {
      var st := LoadedState(loaded);
      FirstEntryDecides(st, env.newest.first.entries);
      FetchKeepsFirstPage(st, VideosUrl(ref), env.newest.first, env.newest.payloads);
      PassSelection(env, ref, loaded);
      assert r.appended[0] == rec;
      assert Urls(loaded + r.appended)[|loaded|] == rec.url;
    }
  }

  /** A run keeps the URL list free of duplicates when the file it loaded was. */
  lemma RunKeepsNoDup(env: Env, ref: ChannelRef, loaded: seq<VideoRecord>)
    requires Loads(env, ref, loaded) && NoDup(Urls(loaded))
    ensures NoDup(Run(env).state.urls)
  {
    RunAfterLoad(env, ref, loaded);
    var r := Run(env);
    FreshKeepsNoDup(Urls(loaded), r.appended);
  }
}

=== FILE: video_count.dfy ===
/** The video count read off the channel's search result (ytchan_dl.py:63-64): the commas
    are removed, the text up to the first space is kept, and Python's `int` parses it. */
module VideoCount {
  import opened Results
  import opened Text

  /** `ValueError` from `int`. */
  datatype CountError = NotAnInteger(text: string)

  predicate IsDigit(c: char) {
    '0' <= c <= '9'
  }

  function DigitValue(c: char): (r: nat)
    requires IsDigit(c)
  {
    c as nat - '0' as nat
  }

  function DigitChar(d: nat): (c: char)
    requires d < 10
    ensures IsDigit(c) && DigitValue(c) == d
  {
    ('0' as nat + d) as char
  }

  predicate AllDigits(s: string) {
    forall i :: 0 <= i < |s| ==> IsDigit(s[i])
  }

  /** The number a string of decimal digits denotes. */
  function DigitsValue(s: string): (r: nat)
    requires AllDigits(s)
  {
    if |s| == 0 then 0 else DigitsValue(s[..|s| - 1]) * 10 + DigitValue(s[|s| - 1])
  }

  /** The body `int` accepts after the sign: digits, where a single `_` may separate two
      digits. */
  predicate UnderscoredDigits(b: string) {
    && |b| > 0 && IsDigit(b[0]) && IsDigit(b[|b| - 1])
    && (forall i :: 0 <= i < |b| ==> IsDigit(b[i]) || b[i] == '_')
    && (forall i :: 0 < i < |b| - 1 && b[i] == '_' ==> IsDigit(b[i + 1]))
  }

  lemma RemoveUnderscores(b: string)
    requires forall i :: 0 <= i < |b| ==> IsDigit(b[i]) || b[i] == '_'
    ensures AllDigits(Remove(b, '_'))
  {
    if |b| > 0 {
      RemoveUnderscores(b[1..]);
    }
  }

  /** The sign of `int`'s argument and the rest of it: the sign written back in front of
      the rest gives the argument again, and a leading sign is always taken off. */
  function SignOf(t: string): (r: (int, string))
    ensures r.0 == 1 || r.0 == -1
    ensures r.0 == -1 ==> t == "-" + r.1
    ensures r.0 == 1 ==> t == r.1 || t == "+" + r.1
    ensures r.1 == t ==> !(|t| > 0 && (t[0] == '+' || t[0] == '-'))
  {
    if |t| > 0 && t[0] == '-' then (-1, t[1..])
    else if |t| > 0 && t[0] == '+' then (1, t[1..])
    else (1, t)
  }

  /** The four information separators U+001C..U+001F: whitespace to `str.isspace()`, but
      not to `int`, which skips only the ASCII whitespace " \t\n\v\f\r" among the
      characters below 128. */
  const InfoSeparators: set<char> := {'\U{001C}', '\U{001D}', '\U{001E}', '\U{001F}'}

  /** Whitespace that `int` skips around its argument. */
  predicate IsIntSpace(c: char) {
    IsSpace(c) && c !in InfoSeparators
  }

  /** Python's `int(s)` in base 10 for ASCII digits: surrounding whitespace is ignored, a
      sign is optional, and underscores may separate digits. An information separator is
      neither whitespace to `int` nor part of a number, so one anywhere in `s` makes `int`
      fail; on text without one, `int`'s whitespace is `str.strip()`'s. */
  function ParsePyInt(s: string): (r: Result<int, CountError>)
    ensures r.Ok? <==> FreeOf(s, InfoSeparators) && UnderscoredDigits(SignOf(Strip(s)).1)
  {
    var (sign, body) := SignOf(Strip(s));
    if FreeOf(s, InfoSeparators) && UnderscoredDigits(body) then
      RemoveUnderscores(body);
      Ok(sign * DigitsValue(Remove(body, '_')))
    else Err(NotAnInteger(s))
  }

  /** `int(re.sub(',', '', display).split(' ')[0])`. */
  function ParseVideoCount(display: string): (r: Result<int, CountError>) {
    ParsePyInt(Split(Remove(display, ','), {' '})[0])
  }

  // ---------------------------------------------------------------------------
  // Rendering a count and reading it back

  /** A count in decimal without leading zeros. */
  function Decimal(n: nat): (s: string)
    ensures |s| > 0 && AllDigits(s)
  {
    if n < 10 then [DigitChar(n)] else Decimal(n / 10) + [DigitChar(n % 10)]
  }

  lemma {:induction false} DecimalValue(n: nat)
    ensures DigitsValue(Decimal(n)) == n
  {
    if n >= 10 {
      DecimalValue(n / 10);
      var s := Decimal(n);
      assert s[..|s| - 1] == Decimal(n / 10);
    }
  }

  /** A count in decimal with a comma between groups of three digits. */
  function Grouped(n: nat): (s: string)
    ensures |s| > 0 && IsDigit(s[0])
  {
    if n < 1000 then Decimal(n) else Grouped(n / 1000) + "," + Pad3(n % 1000)
  }

  /** Three digits, with leading zeros. */
  function Pad3(n: nat): (s: string)
    requires n < 1000
    ensures |s| == 3 && AllDigits(s)
  {
    [DigitChar(n / 100), DigitChar(n / 10 % 10), DigitChar(n % 10)]
  }

  /** Appending three digits multiplies by a thousand and adds them. */
  lemma AppendPad3(q: nat, r: nat)
    requires q > 0 && r < 1000
    ensures Decimal(q * 1000 + r) == Decimal(q) + Pad3(r)
  {
    var n := q * 1000 + r;
    assert n / 10 == (q * 10 + r / 10 / 10) * 10 + r / 10 % 10;
    assert n / 10 / 10 == q * 10 + r / 100;
    assert n / 10 / 10 / 10 == q;
    assert n % 10 == r % 10 && n / 10 % 10 == r / 10 % 10 && n / 10 / 10 % 10 == r / 100;
    assert Decimal(n) == Decimal(n / 10) + [DigitChar(r % 10)];
    assert Decimal(n / 10) == Decimal(n / 10 / 10) + [DigitChar(r / 10 % 10)];
    assert Decimal(n / 10 / 10) == Decimal(q) + [DigitChar(r / 100)];
  }

  /** Dropping the commas of the grouped form leaves the plain decimal form. */
  lemma {:induction false} UngroupedIsDecimal(n: nat)
    ensures Remove(Grouped(n), ',') == Decimal(n)
  {
    if n < 1000 {
      RemoveAbsent(Decimal(n), ',');
    } else {
      var q, r := n / 1000, n % 1000;
      var g, p := Grouped(q), Pad3(r);
      assert Grouped(n) == g + "," + p;
      UngroupedIsDecimal(q);
      RemoveAppend(g + ",", p, ',');
      RemoveAppend(g, ",", ',');
      assert FreeOf(p, {','});
      RemoveAbsent(p, ',');
      assert Remove(",", ',') == "";
      assert Remove(Grouped(n), ',') == Decimal(q) + p;
      AppendPad3(q, r);
      assert q * 1000 + r == n;
    }
  }

  lemma DigitNotSpace(c: char)
    requires IsDigit(c)
    ensures !IsSpace(c)
  {
  }

  /** `int` reads the decimal form of a count back as that count. */
  lemma ParseDecimal(n: nat)
    ensures ParsePyInt(Decimal(n)) == Ok(n)
  {
    var s := Decimal(n);
    assert FreeOf(s, InfoSeparators);
    DigitNotSpace(s[0]);
    DigitNotSpace(s[|s| - 1]);
    StripKeeps(s);
    assert SignOf(s) == (1, s);
    assert UnderscoredDigits(s);
    assert FreeOf(s, {'_'});
    RemoveAbsent(s, '_');
    DecimalValue(n);
  }

  /** An optional sign before digits: the text has no whitespace at either end, and
      `SignOf` takes the sign back off. */
  lemma SignedDigits(sign: string, body: string)
    requires sign == "" || sign == "+" || sign == "-"
    requires |body| > 0 && IsDigit(body[0]) && IsDigit(body[|body| - 1])
    ensures var core := sign + body;
      && !IsSpace(core[0]) && !IsSpace(core[|core| - 1])
      && SignOf(core) == (if sign == "-" then -1 else 1, body)
  {
    var core := sign + body;
    DigitNotSpace(body[0]);
    DigitNotSpace(body[|body| - 1]);
    assert core[|core| - 1] == body[|body| - 1];
    if sign == "" {
      assert core == body;
    } else {
      assert core[0] == sign[0] && core[1..] == body;
    }
  }

  /** `int` on text whose stripped form splits into a sign and accepted digits. */
  lemma ParseSigned(s: string, sign: int, body: string)
    requires FreeOf(s, InfoSeparators)
    requires SignOf(Strip(s)) == (sign, body) && UnderscoredDigits(body)
    ensures AllDigits(Remove(body, '_'))
    ensures ParsePyInt(s) == Ok(sign * DigitsValue(Remove(body, '_')))
  {
    RemoveUnderscores(body);
  }

  /** The value `int` gives: surrounding whitespace is ignored, a leading "-" negates,
      a leading "+" does not, and the underscores between digits are dropped. */
  lemma ParsePyIntValue(head: string, sign: string, body: string, tail: string)
    requires forall i :: 0 <= i < |head| ==> IsIntSpace(head[i])
    requires forall i :: 0 <= i < |tail| ==> IsIntSpace(tail[i])
    requires sign == "" || sign == "+" || sign == "-"
    requires UnderscoredDigits(body)
    ensures AllDigits(Remove(body, '_'))
    ensures ParsePyInt(head + (sign + body) + tail)
            == Ok((if sign == "-" then -1 else 1) * DigitsValue(Remove(body, '_')))
  {
    SignedDigits(sign, body);
    StripPadded(head, sign + body, tail);
    SignedDigitsFree(head, sign, body, tail);
    ParseSigned(head + (sign + body) + tail, if sign == "-" then -1 else 1, body);
  }

  /** Text made of `int`'s whitespace, a sign, digits and underscores holds no
      information separator. */
  lemma SignedDigitsFree(head: string, sign: string, body: string, tail: string)
    requires forall i :: 0 <= i < |head| ==> IsIntSpace(head[i])
    requires forall i :: 0 <= i < |tail| ==> IsIntSpace(tail[i])
    requires sign == "" || sign == "+" || sign == "-"
    requires forall i :: 0 <= i < |body| ==> IsDigit(body[i]) || body[i] == '_'
    ensures FreeOf(head + (sign + body) + tail, InfoSeparators)
  {
    FreeOfAppend(sign, body, InfoSeparators);
    FreeOfAppend(head, sign + body, InfoSeparators);
    FreeOfAppend(head + (sign + body), tail, InfoSeparators);
  }

  /** The decimal form of a count is a digit string `int` accepts, with no underscore. */
  lemma DecimalAccepted(n: nat)
    ensures UnderscoredDigits(Decimal(n)) && Remove(Decimal(n), '_') == Decimal(n)
  {
    var d := Decimal(n);
    assert FreeOf(d, {'_'});
    RemoveAbsent(d, '_');
  }

  /** A negative count written with surrounding whitespace reads back as that count. */
  lemma ParseNegativeDecimal(head: string, n: nat, tail: string)
    requires forall i :: 0 <= i < |head| ==> IsIntSpace(head[i])
    requires forall i :: 0 <= i < |tail| ==> IsIntSpace(tail[i])
    ensures ParsePyInt(head + ("-" + Decimal(n)) + tail) == Ok(-(n as int))
  {
    DecimalAccepted(n);
    DecimalValue(n);
    ParsePyIntValue(head, "-", Decimal(n), tail);
  }

  /** A count shown in grouped form, followed by a space and any words, is parsed back as
      that count. */
  lemma CountRoundTrip(n: nat, words: string)
    ensures ParseVideoCount(Grouped(n) + " " + words) == Ok(n)
  {
    RemoveAppend(Grouped(n) + " ", words, ',');
    RemoveAppend(Grouped(n), " ", ',');
    assert Remove(" ", ',') == " ";
    UngroupedIsDecimal(n);
    var d := Decimal(n);
    assert Remove(Grouped(n) + " " + words, ',') == d + [' '] + Remove(words, ',');
    SplitAppend(d, ' ', Remove(words, ','), {' '});
    SplitFree(d, {' '});
    ParseDecimal(n);
  }

  /** A display that does not start with a number, such as "No videos", makes `int` fail:
      its first character is not a digit, not whitespace that `int` would skip, not a
      sign, and not a comma that the line removes first. */
  lemma WordsFailToParse(words: string)
    requires |words| > 0 && !IsDigit(words[0]) && !IsSpace(words[0])
    requires words[0] !in {'+', '-', ','}
    ensures ParseVideoCount(words).Err?
  {
  }

  /** An information separator in the first word of the display makes `int` fail, even
      at the word's edge, where `str.strip()` would have dropped it. */
  lemma SeparatorInFirstWordFails(word: string, rest: string)
    requires FreeOf(word, {' ', ','}) && !FreeOf(word, InfoSeparators)
    ensures ParseVideoCount(word + " " + rest).Err?
  {
    RemoveAppend(word + " ", rest, ',');
    RemoveAppend(word, " ", ',');
    assert Remove(" ", ',') == " " by {
      assert " "[1..] == "";
    }
    assert FreeOf(word, {','});
    RemoveAbsent(word, ',');
    assert Remove(word + " " + rest, ',') == word + [' '] + Remove(rest, ',');
    SplitAppend(word, ' ', Remove(rest, ','), {' '});
    assert FreeOf(word, {' '});
    SplitFree(word, {' '});
  }

  /** A count behind a leading information separator is not read. */
  lemma LeadingSeparatorFails()
    ensures ParseVideoCount("\U{001C}5 videos").Err?
  {
    assert "\U{001C}5 videos" == "\U{001C}5" + " " + "videos";
    assert "\U{001C}5"[0] in InfoSeparators;
    SeparatorInFirstWordFails("\U{001C}5", "videos");
  }

  /** The display of a channel without videos. */
  lemma NoVideosFails()
    ensures ParseVideoCount("No videos").Err?
  {
    WordsFailToParse("No videos");
  }
}
